=== FILE: README.md ===
# house_collector in Dafny

A model of the collection core of `house_collector`. The collector crawls two
real-estate listing sites, OLX and Imovirtual. It flattens each listing into
a record and keeps one document collection per provider in sync by upsert.

The model covers five parts:

- **Upsert store** (`DbHandler`). `insert_house` inserts a record, merges a
  changed one field by field (Mongo `$set`), or writes nothing for an identical
  one. `get_latest_house` returns a stored record. `insert_houses` is a stub
  that always raises.
- **Collection pipeline** (`DataCollector`, `Chunking`).
  - The checkpoint is taken from some stored record of the provider.
    `get_latest_house` sorts on a field nothing writes, so the record is
    arbitrary.
  - Each fetched record is annotated (`date_modified`, `link`, `available`,
    default `_id`).
  - The `request_pool` loop skips any link whose fetch raises and keeps going.
  - The thread and chunk arithmetic of `process_scrapper` is modelled as
    written, with the slice width as a parameter.
  - `run_once` processes the scrapers in turn and stops at the first one that
    raises.
- **Listing pagination** (`OlxScrapper`, `ImovirtualScrapper`, `Paging`).
  - Pages are visited from the last page down.
  - The early exit at `max_houses` gives exactly the bounded prefix of all the
    links.
  - OLX caches house objects by url. Imovirtual takes the `data-url` of each
    article, filtered and then reversed.
- **Record flattening**. OLX `get_house` works on a cached house object.
  Imovirtual `get_house` works from a house page's parsed JSON.
- **`House.get_json`** (`BaseScrapper`): a fixed key table with the `None`
  values dropped.

Parsed JSON is the `Json.Value` datatype. Python exceptions are
`Wrappers.Error` values carried in a `Result`. The network, HTML and JSON
parsing, and the clock are inputs:

- an `OlxScrapper.Site` or `ImovirtualScrapper.Site` value gives what each
  url answers;
- a scraper's `get_house` is a function from link to `Result<(Record, Timestamp)>`.

The `WebsiteScrapper` interface becomes the closed datatype
`DataCollector.Scrapper`, with one constructor per scraper. A listing comes
with the `get_house` valid after it (`BaseScrapper.Listing`).

Four behaviours of the code are easy to misread, and the model follows the
code in each:

- **Chunks.** The code slices `house_list[offset : offset + 100]` at multiples
  of the chunk size, so chunks overlap or drop houses (see Findings). The
  chunk count is `ceil(N / size)`, which can be less than the worker count.
- **Empty listing.** On the threaded path an empty listing divides by zero.
- **Upsert.** `$set` merges, so fields that only the old record has survive.
- **No per-provider handler.** `run_once` catches nothing, so the first
  failing provider ends the run.

## Model

| member | source | states |
|---|---|---|
| DbHandler.InsertHouse | house_collector/db_handler.py:38-69 | A record without `_id` raises KeyError. If `_id` is new, the record is stored as given. Otherwise the stored record is the old one with `data`'s fields written over it, so old-only fields survive. Records under other ids are untouched. The write is a no-op exactly when the stored record equals `data`. The store stays well formed. |
| DbHandler.InsertHouseIdempotent | house_collector/db_handler.py:41-64 | Upserting the same record twice leaves the store one upsert leaves. The second upsert is never an insert. It writes nothing exactly when the stored record has no field beyond `data`'s. |
| DbHandler.GetLatestHouse | house_collector/db_handler.py:82-95 | Returns nothing exactly when the collection is empty, otherwise some stored record. The sort key is never written, so no particular record is promised. |
| DbHandler.InsertHouses | house_collector/db_handler.py:71-80 | Always raises NotImplementedError. |
| BaseScrapper.GetJson | house_collector/base_scrapper.py:117-142 | No value is `None`. The keys are among the fifteen of the table, so `provider` never appears. |
| BaseScrapper.GetJsonFollowsTable | house_collector/base_scrapper.py:124-142 | A table key is present exactly when its getter returns something other than `None`, and then it holds that value. |
| BaseScrapper.TopologyIsBedrooms | house_collector/base_scrapper.py:126 | `topology` carries the bedroom count. |
| BaseScrapper.PlainHouseIsEmpty | house_collector/base_scrapper.py:27-115 | A house that overrides no getter serialises to an empty dict. |
| Text.StripBreaksSpec | house_collector/imovirtual_scrapper.py:57-61 | Stripping `<br/>` and then `<br>` never lengthens a description. It leaves the description unchanged exactly when neither tag occurs. |
| Text.ReplacementOccurs | house_collector/olx_scrapper.py:158-160 | When the pattern occurs in a url, the replacement occurs in the result. |
| Text.ReplaceSelf | house_collector/imovirtual_scrapper.py:130 | Replacing `page=1` with itself changes nothing. |
| Text.ReplaceOnce | house_collector/olx_scrapper.py:158-160 | When a url holds the pattern exactly once, `replace` changes that occurrence and nothing else. |
| Text.DecimalRoundTrip | house_collector/olx_scrapper.py:159 | The decimal text written into a url reads back as the number. |
| Paging.Collect | house_collector/olx_scrapper.py:172-180 | The early-exit loop returns the first `max_houses` elements of everything on the pages, in order, and its length is `min(max_houses, total)`. A negative bound stops after the first page. |
| Paging.Descending | house_collector/olx_scrapper.py:157 | `reversed(range(lo, hi))` has `hi - lo` elements, from `hi - 1` down. |
| Chunking.PlanFor | house_collector/data_collector.py:144-157 | It succeeds exactly when there is at least one house and `max_threads >= 1`. Otherwise it raises ZeroDivisionError, or ValueError for a negative count. The worker count is `min(max_threads, n)`. The chunk size is `ceil(n / workers)`, between 1 and `n`. |
| Chunking.ChunksFrom | house_collector/data_collector.py:158-161 | Slices start at `start` and step by the chunk size, and there are none exactly when `start` is past the end. `Chunks` is this from offset 0. |
| Chunking.ChunkCount | house_collector/data_collector.py:158-161 | The number of chunks `k` satisfies `(k - 1) * size < n <= k * size`. |
| Chunking.ChunkContents | house_collector/data_collector.py:158-161 | Chunk `j` starts at offset `j * size`, below `n`, and is the slice `[offset, min(offset + width, n))`. |
| Chunking.ChunkCountWithinWorkers | house_collector/data_collector.py:144-161 | There are never more chunks than workers. |
| Chunking.CoverageIff | house_collector/data_collector.py:158-161 | Every index lies in some chunk exactly when the chunk size is at most the slice width. |
| Chunking.OverlapWhenNarrow | house_collector/data_collector.py:159-160 | With the chunk size below the width and at least two chunks, index `size` lies in the first two chunks. |
| Chunking.DisjointWhenWide | house_collector/data_collector.py:159-160 | With the chunk size at least the width, no index lies in two chunks. |
| Chunking.InChunkIsSliced | house_collector/data_collector.py:158-161 | Index `i` falls in the offset range of chunk `j` exactly when chunk `j` of `Chunks` exists and `j * size <= i < j * size + |chunk j|`, i.e. `i` is within the index range that chunk `j` was sliced from. |
| Chunking.ChunksCoverIff | house_collector/data_collector.py:158-161 | Every element of the listing is sliced into some chunk exactly when the chunk size is at most the slice width. |
| Chunking.ChunksOverlapWhenNarrow | house_collector/data_collector.py:159-160 | With the chunk size below the width and at least two chunks, the element at `size` is in both the first and second chunk. |
| Chunking.ChunksDisjointWhenWide | house_collector/data_collector.py:159-160 | With the chunk size at least the width, no element position is sliced into two chunks. |
| Chunking.ChunksPartition | house_collector/data_collector.py:155-161 | With the width equal to the chunk size, the chunks laid end to end give back the list. |
| Chunking.IntendedChunks | house_collector/data_collector.py:144-161 | The corrected split covers the listing exactly, in order, with at most one chunk per worker. |
| Chunking.FiveHousesTwoWorkers | house_collector/data_collector.py:144-161 | Five houses and two workers give chunk size 3 and the chunks `[a..e]` and `[d, e]`. |
| Chunking.OneWorkerDropsTail | house_collector/data_collector.py:144-161 | 150 houses and one worker give one chunk of the first 100 houses. |
| Chunking.FewerChunksThanWorkers | house_collector/data_collector.py:144-161 | Five houses and four workers give three chunks. |
| OlxScrapper.VisitOrder | house_collector/olx_scrapper.py:153-157 | With `num_pages = total // 40 + 1`, pages `num_pages - 1` down to 1 are visited, so offset 0 is never requested. |
| OlxScrapper.PageUrlCarriesOffset | house_collector/olx_scrapper.py:158-160 | Each page's url carries `offset=` and the page's offset. |
| OlxScrapper.PageUrlIs | house_collector/olx_scrapper.py:158-160 | Page `i`'s url is the first page's url with its one `offset=0` turned into `offset=` and `40 * i`, and nothing else changed. |
| OlxScrapper.Remember | house_collector/olx_scrapper.py:172-174 | After a page is read, the cache holds exactly the old urls and the page's urls. A url the page does not list keeps its old house. |
| OlxScrapper.RememberLastWins | house_collector/olx_scrapper.py:172-174 | For a url listed several times on a page, the cache holds the house of its last entry. |
| OlxScrapper.RememberListed | house_collector/olx_scrapper.py:172-174 | A url listed on the page is cached with a house that the page lists under that url. |
| OlxScrapper.Walk | house_collector/olx_scrapper.py:157-180 | Walking the pages returns the bounded prefix of their urls. Every returned url is cached, and every cached url comes from a page. |
| OlxScrapper.WalkCachesListed | house_collector/olx_scrapper.py:157-180 | After the walk, each cached url either kept its earlier house or maps to a house that a visited page listed under that url. |
| OlxScrapper.GetHouseList | house_collector/olx_scrapper.py:131-180 | Within the model it fails exactly when the total count cannot be read (the later-page failures are under Left out). It returns the first `max_houses` urls of the visited pages, of length `min(max_houses, total)`. Every one of them is in the freshly reset cache. |
| OlxScrapper.CachedHousesListed | house_collector/olx_scrapper.py:131-180 | Every url in the listing's cache maps to a house that one of the visited pages listed under that url. |
| OlxScrapper.MinDateIgnored | house_collector/olx_scrapper.py:141-142 | `min_date` has no effect on the listing. |
| OlxScrapper.ReturnedLinksAreCached | house_collector/olx_scrapper.py:38-39 | Every returned url is in the listing's cache, so `get_house` on it never raises the link-not-found ValueError. |
| OlxScrapper.Head | house_collector/olx_scrapper.py:43-61 | The selected keys are copied, `_id` is `data["id"]` and the description is stripped of break tags. A missing `id` raises KeyError. |
| OlxScrapper.Promotions | house_collector/olx_scrapper.py:64-66 | Every promotion entry except `options` and `b2c_ad_page` is copied. |
| OlxScrapper.ParamEntry | house_collector/olx_scrapper.py:69-78 | A param writes `value.value` under its key when present, else `value.key`, else nothing. |
| OlxScrapper.ParamEntryWrites | house_collector/olx_scrapper.py:69-74 | A param that writes something is a dict whose `key` names the field, and the value written is `value.value` when present, else `value.key`. |
| OlxScrapper.Params | house_collector/olx_scrapper.py:69-78 | It succeeds exactly when every param can be read. Otherwise it raises the error of the first param that cannot. Every assignment comes from a param, and every param that writes contributes its pair. |
| OlxScrapper.LastParamWins | house_collector/olx_scrapper.py:69-74 | The record holds, for a key, the value of the last param that writes that key. |
| OlxScrapper.Coordinates | house_collector/olx_scrapper.py:85-87 | Coordinates are crossed: `longitude` takes `map.lat` and `latitude` takes `map.lon`. |
| OlxScrapper.PhotoLinks | house_collector/olx_scrapper.py:97 | The photo links, one per photo, in order. |
| OlxScrapper.Assigned | house_collector/olx_scrapper.py:41-78 | The head, promotions and params give a record with `_id`, equal to `data["id"]` unless a promotion or param is keyed `_id`. Well-formed input (id, text description, dict promotion, a list of params each a dict with a text `key` and a dict `value`) never fails. |
| OlxScrapper.Selected | house_collector/olx_scrapper.py:41-82 | The head, promotions, params and user always give a record with `_id`. It is `data["id"]` unless a promotion or param is keyed `_id`. Well-formed input, including a user dict with `id` and `created`, never fails. |
| OlxScrapper.Located | house_collector/olx_scrapper.py:84-94 | The coordinates and address only add or overwrite keys. `_id` survives unless a dict-valued location entry is keyed `_id`. A `map` with `lat` and `lon` (or none) and a location dict whose dict entries have `name` never fail. |
| OlxScrapper.Pictured | house_collector/olx_scrapper.py:96-101 | `photos` becomes the photo links, one per photo in order, and every category entry is added under `category_` plus its key. Every other key keeps its value. A list of photo dicts with `link` and a category dict never fail. |
| OlxScrapper.Flatten | house_collector/olx_scrapper.py:41-101 | A flattened house object has `_id`, which is `data["id"]` when no later step writes `_id`. It has the photo links, one per photo in order, and every category entry under `category_` plus its key. Failures are lookup and type errors of malformed data: well-formed data always flattens. |
| OlxScrapper.SelectedKeeps | house_collector/olx_scrapper.py:41-82 | A key no later step can write keeps its value through the head, promotions, params and user. |
| OlxScrapper.AssignedKeeps | house_collector/olx_scrapper.py:41-78 | A key no promotion or param writes keeps its value through the head, promotions and params. |
| OlxScrapper.LocatedKeeps | house_collector/olx_scrapper.py:84-94 | A key other than the coordinates and the dict-valued location entries keeps its value. |
| OlxScrapper.FlattenKeeps | house_collector/olx_scrapper.py:41-101 | A time field no promotion, param or location entry writes reaches the flattened record unchanged. |
| OlxScrapper.Categories | house_collector/olx_scrapper.py:100-101 | Every category entry is copied under `category_` plus its key, and nothing else. |
| OlxScrapper.Stamp | house_collector/olx_scrapper.py:104-115 | A time field must be a string, and it is replaced by the time parsed from it. |
| OlxScrapper.Finish | house_collector/olx_scrapper.py:104-123 | It succeeds exactly when the four time fields are present as text. Each is replaced by the time parsed from its own text, `provider` is `olx` and `link` is the link. The returned time is `created_time`. Every other field is kept. |
| OlxScrapper.GetHouse | house_collector/olx_scrapper.py:32-123 | It raises the link-not-found ValueError exactly when the link is not cached, and succeeds exactly when the link is cached, its data flattens and the four time fields are text. On success the record has `_id`, equal to `data["id"]` when no later step writes `_id`. It also has the photo links, `provider`, `link`, `created_time` as the returned time, and every category entry. |
| OlxScrapper.WellFormedHouseFetched | house_collector/olx_scrapper.py:32-123 | A cached link whose data is well formed, with its four time fields as text and not overwritten by a later step, always gives a house. |
| ImovirtualScrapper.ListingUrl | house_collector/imovirtual_scrapper.py:108-114 | No `min_date` gives the plain url. A time gives the search url with the day count. Anything else raises TypeError. |
| ImovirtualScrapper.FirstPageIsBase | house_collector/imovirtual_scrapper.py:129-130 | Page 1's url is the first page's url. |
| ImovirtualScrapper.PageUrlCarriesPage | house_collector/imovirtual_scrapper.py:129-130 | Each page's url carries `page=` and its number. |
| ImovirtualScrapper.PlainPageUrlIs | house_collector/imovirtual_scrapper.py:129-130 | Page `i` of the plain listing is the first page's url with its one `page=1` turned into `page=` and `i`. |
| ImovirtualScrapper.SearchUrlIs | house_collector/imovirtual_scrapper.py:108-114 | The search's first page has the day count in place of `<DAYS_ELAPSED>`, and nothing else changed. |
| ImovirtualScrapper.SearchPageUrlIs | house_collector/imovirtual_scrapper.py:108-130 | Page `i` of the search carries both the day count and `page=` and `i`, each where the site reads it. |
| ImovirtualScrapper.DataUrls | house_collector/imovirtual_scrapper.py:162-169 | The `data-url` of each article that has one, in document order. Articles without one are skipped. A url is kept exactly when some article has it as `data-url`. |
| ImovirtualScrapper.LinksFromPage | house_collector/imovirtual_scrapper.py:152-172 | The kept urls in reverse document order. |
| ImovirtualScrapper.VisitOrder | house_collector/imovirtual_scrapper.py:129 | Pages `num_pages` down to 1. |
| ImovirtualScrapper.GetHouseList | house_collector/imovirtual_scrapper.py:98-149 | Within the model it fails exactly when the url choice or the page count fails (the `get_until_success` failures are under Left out). It returns the first `max_houses` links of the visited pages, of length `min(max_houses, total)`. |
| ImovirtualScrapper.CategoryOf | house_collector/imovirtual_scrapper.py:55 | `ad["category"]["name"][0]["value"]`, and when each step fails. |
| ImovirtualScrapper.Head | house_collector/imovirtual_scrapper.py:45-65 | It succeeds exactly when the category path, `id`, a text `description` and a text `createdAt` are present. Selected keys are copied. `category` and `_id` are set, the description is stripped, and `createdAt` is parsed. Nothing else is written. |
| ImovirtualScrapper.Characteristics | house_collector/imovirtual_scrapper.py:68-71 | One `key` to `value` assignment per characteristic, in order. A malformed one raises. |
| ImovirtualScrapper.LaterCharacteristicWins | house_collector/imovirtual_scrapper.py:68-71 | A later characteristic overwrites an earlier one with the same key. |
| ImovirtualScrapper.Coordinates | house_collector/imovirtual_scrapper.py:74-77 | Coordinates are not crossed: `longitude` takes `coordinates.longitude` and `latitude` takes `coordinates.latitude`. |
| ImovirtualScrapper.Ad | house_collector/imovirtual_scrapper.py:43 | It succeeds exactly when the page has a `props.pageProps.ad` dict, and returns that dict. |
| ImovirtualScrapper.Flatten | house_collector/imovirtual_scrapper.py:43-90 | The returned time is `modifiedAt`. The record holds `_id`, `category`, `description`, `createdAt` and the coordinates. Every failure is a lookup or type error of malformed data; a well-formed ad always flattens. A badly formatted time is not modelled (see Left out). |
| ImovirtualScrapper.GetHouse | house_collector/imovirtual_scrapper.py:31-90 | A page that cannot be fetched or parsed raises that error. Otherwise the house is the page's ad flattened as above. |
| Json.NamedEntries | house_collector/imovirtual_scrapper.py:80-82 | Dict-valued entries contribute their `name`. Other entries are skipped. A dict without `name` raises. |
| Json.AssignLastWins | house_collector/imovirtual_scrapper.py:68-71 | Assigning pairs in order makes the last pair for a key win. Keys no pair names keep their value. |
| DataCollector.Annotate | house_collector/data_collector.py:87-93 | `date_modified`, `link` and `available` are set. `_id` is kept if present, otherwise set to the link. Nothing else changes. |
| DataCollector.Step | house_collector/data_collector.py:86-101 | A link whose fetch raises leaves the store unchanged. Otherwise the annotated record is upserted into the provider's collection. |
| DataCollector.UpsertAllStoresEach | house_collector/db_handler.py:41-64 | Upserting records never deletes an id, and each upserted record is stored under its `_id`. |
| DataCollector.RequestPoolIsUpsertOfSuccesses | house_collector/data_collector.py:84-101 | After `request_pool`, the provider's collection is the upsert of the successfully fetched records in list order. Other collections are untouched. |
| DataCollector.RequestPoolConcat | house_collector/data_collector.py:84-101 | Handling `a + b` is handling `a`, then `b`. |
| DataCollector.RequestPoolKeepsWellFormed | house_collector/data_collector.py:84-101 | Every record stays stored under its own `_id`. |
| DataCollector.RequestPool | house_collector/data_collector.py:84-101 | The loop computes the fold, and that fold upserts only the successes into the provider's collection. |
| DataCollector.IntendedChunksMatchInline | house_collector/data_collector.py:155-165 | With slices as wide as the chunk size, handling the chunks one after another stores what the inline path stores. |
| DataCollector.OlxListingLinksFetchable | house_collector/data_collector.py:121-130 | The `get_house` paired with an OLX listing never raises the link-not-found error for one of its links. |
| DataCollector.GetHouseList | house_collector/data_collector.py:121-130 | The listing and `get_house` of each scraper. |
| DataCollector.Checkpoint | house_collector/data_collector.py:113-130 | No stored record (or an empty one) gives no `min_date`. Otherwise `min_date` is the record's `date_modified`, and raises KeyError if it is missing. |
| DataCollector.ProcessWith | house_collector/data_collector.py:113-165 | The pass succeeds exactly when the checkpoint, the listing and (threaded Imovirtual only) the thread plan do. Otherwise it raises the first of their errors, including the plan's ZeroDivisionError or ValueError. A threaded pass needs at least one house and `max_threads >= 1`. It leaves the store unchanged and hands out the chunks as written. An inline pass upserts the successes. Only the provider's collection ever changes. |
| DataCollector.PooledPassStoresNothing | house_collector/data_collector.py:155-165 | A threaded Imovirtual pass into an empty collection leaves it empty, while the same pass inline stores the houses it fetched. |
| DataCollector.ProcessIntended | house_collector/data_collector.py:113-165 | With each worker given its chunk and chunks sliced by their size, the pass fails exactly when the pass as written fails. Threaded or not, it stores what the inline pass stores, and its chunks laid end to end are the listing. |
| DataCollector.ProcessScrapper | house_collector/data_collector.py:104-167 | The checkpoint record is some stored record of the provider, or none when the collection is empty. The result is the pass for that record. Only the provider's collection changes. |
| DataCollector.Advance | house_collector/data_collector.py:104-167 | One scraper's turn returns exactly the store or the exception of the pass from the stored record it chose. Only the provider's collection changes. |
| DataCollector.HistoryExtends | house_collector/data_collector.py:62-67 | A run's record of passes, each from a stored record of its provider, extends by one more completed pass. |
| DataCollector.RunPassesSnoc | house_collector/data_collector.py:62-67 | Running one more scraper after a successful run gives that scraper's pass. |
| DataCollector.HistoryIsFold | house_collector/data_collector.py:62-67 | The store after the recorded passes is the passes run one after the other from the first store. |
| DataCollector.RunOnce | house_collector/data_collector.py:62-67 | Scrapers are processed in turn, each from a stored record of its provider. The result is the passes run one after the other. The run stops exactly at the first pass that raises, returning that pass's error. Collections of scrapers not yet processed are untouched. |

## Left out

- HTTP requests, `get_until_success` retries, `raise_for_status`, BeautifulSoup parsing and `json.loads`. Page contents and parse results are inputs of the `Site` values, and a failure to read the page count is an `Err` input.
- `datetime.strptime` and `datetime.now()`. A time is its text: parsing checks only that the value is a string, and "days since" is an input function. So a badly formatted time, which raises ValueError in both scrapers' `get_house`, cannot fail in the model.
- The `ThreadPoolExecutor` dispatch. As written no worker stores anything (see Findings), so `DataCollector.ProcessWith` leaves the store unchanged on the threaded path and returns the chunks it would hand out. `DataCollector.ProcessIntended` runs the workers' chunks one after the other. Concurrent workers upserting the same `_id` in another order are not modelled.
- The `run` loop with `time.sleep`, the `house_cache_list.txt` write, and all logging.
- MongoDB client lifecycle, BSON round-trips and store I/O errors. Record equality is structural.
- The iteration order of `SCRAPPER_LIST`, a Python set. `DataCollector.RunOnce` takes the scrapers in any order given.
- A non-string key in a param or characteristic is a TypeError at flattening time. Python would accept it and fail later at the store, which likewise skips the item.
- The `location` argument of `get_house_list` is never used by either scraper and is not modelled.
- `House.__str__` and the getters' own bodies. A `House` is given by what its getters return.
- `Json.Elements` models iteration with a string-keyed subscript on each element. A non-empty string or dict raises TypeError at the first element, which is what the flattening loops would do.
- ImovirtualScrapper.ListingUrl: states the search url as the `<DAYS_ELAPSED>` replacement. It does not prove that the search url differs from the plain one.
- ImovirtualScrapper.Flatten: states which keys the record holds, not every value. Later steps may overwrite earlier ones with the same key. The per-step members (`Head`, `Coordinates`, `Characteristics`, `Json.NamedEntries`) state the values.
- OlxScrapper.GetHouseList: `Site.entries` always yields a page's entries. In the source a later page raises when its JSON does not decode, when it has no `data`, or when an entry has no `url` (olx_scrapper.py:166-174). Each of these ends the run, but none can happen in the model.
- OlxScrapper.GetHouse: states `_id` as `data["id"]` only when no promotion, param or dict-valued location entry is keyed `_id` (`Kept`). Otherwise a later step overwrites it. The same hypothesis for the four time fields (`TimesKept`) is what `WellFormedHouseFetched` needs. It states the categories and photos, but not every param, promotion or coordinate value at record level. `Params`, `LastParamWins`, `Promotions` and `Coordinates` state those per step.
- ImovirtualScrapper.GetHouseList: `get_until_success` (utils.py:16-23) retries until the status is 200 and raises when `requests.get` raises (a timeout or a refused connection). Pages are inputs here, so neither the endless retry nor that exception is modelled.
- DataCollector.RequestPoolFold has no contract of its own. `RequestPool`, `RequestPoolIsUpsertOfSuccesses` and `RequestPoolConcat` state what it computes.

## Findings

| source | as written | input that shows it | evidently intended | confidence | as-written member | corrected member |
|---|---|---|---|---|---|---|
| house_collector/data_collector.py:158-161 | chunks are `house_list[offset : offset + 100]` at offsets `0, size_chunks, 2*size_chunks, ...` | five houses, two threads: chunk size 3, chunks `[a,b,c,d,e]` and `[d,e]` (d and e twice); 150 houses, one thread: one chunk of 100, the last 50 in no chunk | `house_list[offset : offset + size_chunks]`, a partition of the listing with at most one chunk per worker | not executed | Chunking.FiveHousesTwoWorkers | Chunking.IntendedChunks |
| house_collector/data_collector.py:162 | `executor.map(self.request_pool, chunks)` calls `request_pool(house_list, scrapper)` with a chunk and no scraper, so every worker raises TypeError; the unread futures hide it | any threaded Imovirtual pass with a fetchable house: nothing is stored, where the inline pass stores the house | each worker runs `request_pool(chunk, scrapper)`, so threading stores what the inline pass stores | not executed | DataCollector.PooledPassStoresNothing | DataCollector.ProcessIntended |

=== FILE: base_scrapper.dfy ===
/** What every scraper offers the collector, and the `House` record with its
    key table. */
module BaseScrapper {
  import opened Wrappers
  import opened Json

  /** `get_house`: fetch one listing, giving its flat record and the time it
      was last changed, or the exception that stopped it. */
  type Fetch = string -> Result<(Record, Timestamp)>

  /** The outcome of `get_house_list`: the links, oldest first by the
      scrapers' own promise (not checked here), together with the `get_house`
      that is valid once the listing has been taken (a scraper may cache
      what the listing pages held). */
  datatype Listing = Listing(links: seq<string>, getHouse: Fetch)

  /** The default `max_houses` of `get_house_list`. */
  const DefaultMaxHouses: int := 9999999

  /** A `House`, given by what each of its getters returns (`VNull` for
      `None`). */
  datatype House = House(
    title: Value,
    description: Value,
    bedrooms: Value,
    bathrooms: Value,
    location: Value,
    address: Value,
    price: Value,
    utilArea: Value,
    bruteArea: Value,
    fieldArea: Value,
    link: Value,
    constructionYear: Value,
    energyCertificate: Value,
    condition: Value,
    isInvestment: Value)

  /** A `House` that overrides no getter: every getter returns `None`. */
  const PlainHouse: House :=
    House(VNull, VNull, VNull, VNull, VNull, VNull, VNull, VNull,
          VNull, VNull, VNull, VNull, VNull, VNull, VNull)

  /** The dict `get_json` builds, before `None` values are dropped: each key
      with the getter that fills it. */
  function KeyTable(h: House): seq<(string, Value)> {
    [ ("title", h.title),
      ("topology", h.bedrooms),
      ("location", h.location),
      ("address", h.address),
      ("price", h.price),
      ("util_area", h.utilArea),
      ("brute_area", h.bruteArea),
      ("field_area", h.fieldArea),
      ("bathrooms", h.bathrooms),
      ("link", h.link),
      ("construction_year", h.constructionYear),
      ("energy_certificate", h.energyCertificate),
      ("condition", h.condition),
      ("investment", h.isInvestment),
      ("description", h.description) ]
  }

  /** The keys `get_json` may produce. */
  const JsonKeys: set<string> :=
    { "title", "topology", "location", "address", "price", "util_area",
      "brute_area", "field_area", "bathrooms", "link", "construction_year",
      "energy_certificate", "condition", "investment", "description" }

  /** The getter that fills key `k` of the key table. */
  function Getter(h: House, k: string): Value {
    if k == "title" then h.title
    else if k == "topology" then h.bedrooms
    else if k == "location" then h.location
    else if k == "address" then h.address
    else if k == "price" then h.price
    else if k == "util_area" then h.utilArea
    else if k == "brute_area" then h.bruteArea
    else if k == "field_area" then h.fieldArea
    else if k == "bathrooms" then h.bathrooms
    else if k == "link" then h.link
    else if k == "construction_year" then h.constructionYear
    else if k == "energy_certificate" then h.energyCertificate
    else if k == "condition" then h.condition
    else if k == "investment" then h.isInvestment
    else if k == "description" then h.description
    else VNull
  }

  /** `get_json`: the key table without its `None` entries. */
  function GetJson(h: House): (r: Record)
    ensures forall k :: k in r ==> r[k] != VNull
    ensures r.Keys <= JsonKeys
    ensures "provider" !in r
  {
    map k | k in JsonKeys && Getter(h, k) != VNull :: Getter(h, k)
  }

  /** Read against the key table: a key is present exactly when its getter
      returns something other than `None`, and then it holds that value. */
  lemma GetJsonFollowsTable(h: House)
    ensures forall j :: 0 <= j < |KeyTable(h)| ==>
              (KeyTable(h)[j].0 in GetJson(h) <==> KeyTable(h)[j].1 != VNull)
    ensures forall j :: 0 <= j < |KeyTable(h)| && KeyTable(h)[j].0 in GetJson(h) ==>
              GetJson(h)[KeyTable(h)[j].0] == KeyTable(h)[j].1
  {
    var t := KeyTable(h);
    forall j | 0 <= j < |t|
      ensures t[j].0 in JsonKeys && Getter(h, t[j].0) == t[j].1
    {
    }
  }

  /** `topology` carries the bedroom count, present when it is not `None`. */
  lemma TopologyIsBedrooms(h: House)
    ensures "topology" in GetJson(h) <==> h.bedrooms != VNull
    ensures "topology" in GetJson(h) ==> GetJson(h)["topology"] == h.bedrooms
  {
    GetJsonFollowsTable(h);
    assert KeyTable(h)[1] == ("topology", h.bedrooms);
  }

  /** A `House` that overrides no getter serialises to an empty dict. */
  lemma PlainHouseIsEmpty()
    ensures GetJson(PlainHouse) == map[]
  {
    var r := GetJson(PlainHouse);
    forall k | k in JsonKeys
      ensures Getter(PlainHouse, k) == VNull
    {
    }
    assert r.Keys == {};
  }
}

=== FILE: chunking.dfy ===
/** The work split `process_scrapper` computes before handing houses to a
    thread pool: a worker count, a chunk size, and chunks sliced at every
    multiple of the chunk size. The slice is written with the literal width
    100 rather than the chunk size; `Chunks` takes the width as a parameter
    so that both the code as written and the evidently intended split can
    be stated. */
module Chunking {
  import opened Wrappers
  import opened Paging

  /** The literal slice width `house_list[offset : offset + 100]`. */
  const SliceWidth: nat := 100

  /** How many workers to start and how many houses each is meant to get. */
  datatype Plan = Plan(workers: nat, size: nat)

  /** `math.ceil(n / d)` for positive `d`. */
  function CeilDiv(n: nat, d: nat): nat
    requires d > 0
  {
    (n + d - 1) / d
  }

  lemma CeilDivBounds(n: nat, d: nat)
    requires d > 0
    ensures (CeilDiv(n, d) - 1) * d < n <= CeilDiv(n, d) * d
    ensures n >= 1 ==> 1 <= CeilDiv(n, d) <= n
  {
    var q := CeilDiv(n, d);
    var m := n + d - 1;
    assert m == d * q + m % d;
    if n >= 1 {
      assert (n - 1) * (d - 1) >= 0;
      assert n * d - m == (n - 1) * (d - 1);
      MulCancel(q, n, d);
    }
  }

  /** `q * d <= n * d` with `d` positive bounds `q` by `n`. */
  lemma MulCancel(q: nat, n: nat, d: nat)
    requires d > 0 && q * d <= n * d
    ensures q <= n
  {
    if q > n {
      MulStep(n, q, d);
    }
  }

  /** The worker count `min(max_threads, len(house_list))` and the chunk
      size `ceil(len / workers)`. A count of zero divides by zero; a negative
      one makes `ThreadPoolExecutor` reject it. */
  function PlanFor(n: nat, maxThreads: int): (r: Result<Plan>)
    ensures r.Ok? <==> n >= 1 && maxThreads >= 1
    ensures r.Err? && maxThreads >= 0 ==> r.error == ZeroDivisionError
    ensures r.Err? && maxThreads < 0 ==> r.error.ValueError?
    ensures r.Ok? ==> r.value.workers == Min(maxThreads, n) && r.value.workers >= 1
    ensures r.Ok? ==> (r.value.size - 1) * r.value.workers < n <= r.value.size * r.value.workers
    ensures r.Ok? ==> 1 <= r.value.size <= n
  {
    var workers := if maxThreads > n then n else maxThreads;
    if workers == 0 then
      Err(ZeroDivisionError)
    else if workers < 0 then
      Err(ValueError("max_workers must be greater than 0"))
    else
      var size := CeilDiv(n, workers);
      CeilDivBounds(n, workers);
      Ok(Plan(workers, size))
  }

  /** `a < b` steps a multiple of `s` up by at least `s`. */
  lemma MulStep(a: nat, b: nat, s: nat)
    requires a < b
    ensures a * s + s <= b * s
  {
    var d := b - a - 1;
    assert b * s == a * s + s + d * s;
  }

  /** `[items[o : o + width] for o in range(start, len(items), size)]`. */
  function ChunksFrom<T>(items: seq<T>, start: nat, size: nat, width: nat): (r: seq<seq<T>>)
    requires size >= 1
    ensures |r| == 0 <==> start >= |items|
    decreases |items| - start
  {
    if start >= |items| then []
    else [items[start .. Min(start + width, |items|)]] + ChunksFrom(items, start + size, size, width)
  }

  lemma MulSucc(k: int, s: int)
    ensures (k + 1) * s == k * s + s
  {
  }

  lemma MulLe(a: nat, b: nat, s: nat)
    requires a <= b
    ensures a * s <= b * s
  {
    if a < b {
      MulStep(a, b, s);
    }
  }

  /** The number of chunks `k` is `ceil((len - start) / size)`, that is
      `(k - 1) * size < len - start <= k * size`. */
  lemma {:induction false} ChunkCount<T>(items: seq<T>, start: nat, size: nat, width: nat)
    requires size >= 1 && start < |items|
    ensures var k := |ChunksFrom(items, start, size, width)|;
            (k - 1) * size < |items| - start <= k * size
    decreases |items| - start
  {
    var rest := ChunksFrom(items, start + size, size, width);
    if start + size < |items| {
      ChunkCount(items, start + size, size, width);
      MulSucc(|rest| - 1, size);
      MulSucc(|rest|, size);
    }
  }

  /** Chunk `j` starts at offset `start + j * size`, below the list length,
      and holds the slice of width `width` there, cut at the end of the
      list. */
  lemma {:induction false} ChunkContents<T>(items: seq<T>, start: nat, size: nat, width: nat)
    requires size >= 1
    ensures var r := ChunksFrom(items, start, size, width);
            forall j :: 0 <= j < |r| ==>
              start + j * size < |items|
              && r[j] == items[start + j * size .. Min(start + j * size + width, |items|)]
    decreases |items| - start
  {
    var r := ChunksFrom(items, start, size, width);
    if start < |items| {
      var rest := ChunksFrom(items, start + size, size, width);
      assert r == [items[start .. Min(start + width, |items|)]] + rest;
      ChunkContents(items, start + size, size, width);
      forall j | 1 <= j < |r|
        ensures start + j * size < |items|
        ensures r[j] == items[start + j * size .. Min(start + j * size + width, |items|)]
      {
        assert r[j] == rest[j - 1];
        MulSucc(j - 1, size);
      }
    }
  }

  /** The chunks sliced at offsets `0, size, 2*size, ...` below `|items|`. */
  function Chunks<T>(items: seq<T>, size: nat, width: nat): seq<seq<T>>
    requires size >= 1
  {
    ChunksFrom(items, 0, size, width)
  }

  /** There are never more chunks than workers (there may be fewer),
      whatever the slice width. */
  lemma ChunkCountWithinWorkers<T>(items: seq<T>, maxThreads: int, width: nat)
    requires PlanFor(|items|, maxThreads).Ok?
    ensures var p := PlanFor(|items|, maxThreads).value;
            |Chunks(items, p.size, width)| <= p.workers
  {
    var p := PlanFor(|items|, maxThreads).value;
    var k := |Chunks(items, p.size, width)|;
    ChunkCount(items, 0, p.size, width);
    if k > p.workers {
      MulLe(p.workers, k - 1, p.size);
    }
  }

  /** With slice width equal to the chunk size the chunks are an exact,
      order-preserving partition: laid end to end they give back the list. */
  lemma {:induction false} ChunksPartitionFrom<T>(items: seq<T>, start: nat, size: nat)
    requires size >= 1 && start <= |items|
    ensures Concat(ChunksFrom(items, start, size, size)) == items[start..]
    decreases |items| - start
  {
    if start < |items| {
      var next := Min(start + size, |items|);
      var rest := ChunksFrom(items, start + size, size, size);
      if start + size < |items| {
        ChunksPartitionFrom(items, start + size, size);
      } else {
        assert rest == [];
      }
      assert ChunksFrom(items, start, size, size) == [items[start..next]] + rest;
      assert Concat(rest) == items[next..];
      assert items[start..next] + items[next..] == items[start..];
    }
  }

  lemma ChunksPartition<T>(items: seq<T>, size: nat)
    requires size >= 1
    ensures Concat(Chunks(items, size, size)) == items
  {
    ChunksPartitionFrom(items, 0, size);
  }

  /** The split `process_scrapper` evidently intends: slices as wide as the
      chunk size. They lay end to end into the listing and there are never
      more of them than workers. */
  function IntendedChunks<T>(items: seq<T>, maxThreads: int): (r: Result<seq<seq<T>>>)
    ensures r.Ok? <==> PlanFor(|items|, maxThreads).Ok?
    ensures r.Ok? ==> Concat(r.value) == items
    ensures r.Ok? ==> |r.value| <= PlanFor(|items|, maxThreads).value.workers
  {
    var plan :- PlanFor(|items|, maxThreads);
    ChunksPartition(items, plan.size);
    ChunkCountWithinWorkers(items, maxThreads, plan.size);
    Ok(Chunks(items, plan.size, plan.size))
  }

  /** Index `i` of a list of `n` lies in chunk `j`. */
  predicate InChunk(n: nat, size: nat, width: nat, j: nat, i: nat) {
    j * size < n && j * size <= i < Min(j * size + width, n)
  }

  /** Index `i` lies in some chunk. */
  ghost predicate Covered(n: nat, size: nat, width: nat, i: nat) {
    exists j: nat :: InChunk(n, size, width, j, i)
  }

  /** Every index lies in some chunk exactly when the chunk size is at most
      the slice width. With width 100, any chunk size above 100 (fewer than
      `n / 100` workers) leaves houses out of every chunk. */
  lemma CoverageIff(n: nat, size: nat, width: nat)
    requires 1 <= size <= n
    ensures (forall i: nat :: i < n ==> Covered(n, size, width, i)) <==> size <= width
  {
    if size <= width {
      forall i: nat | i < n
        ensures Covered(n, size, width, i)
      {
        var j := i / size;
        assert i == size * j + i % size;
        assert InChunk(n, size, width, j, i);
      }
    } else {
      assert width < n;
      assert !Covered(n, size, width, width) by {
        forall j: nat
          ensures !InChunk(n, size, width, j, width)
        {
          if j >= 1 {
            assert j * size >= size;
          }
        }
      }
    }
  }

  /** With the chunk size below the slice width and at least two chunks,
      index `size` lies in the first and the second chunk: the chunks
      overlap and are not a partition. */
  lemma OverlapWhenNarrow(n: nat, size: nat, width: nat)
    requires 1 <= size < width && size < n
    ensures InChunk(n, size, width, 0, size) && InChunk(n, size, width, 1, size)
  {
  }

  /** With the chunk size at least the slice width no index lies in two
      chunks. */
  lemma DisjointWhenWide(n: nat, size: nat, width: nat, j1: nat, j2: nat, i: nat)
    requires 1 <= width <= size
    requires InChunk(n, size, width, j1, i) && InChunk(n, size, width, j2, i)
    ensures j1 == j2
  {
    if j1 < j2 {
      MulStep(j1, j2, size);
    } else if j2 < j1 {
      MulStep(j2, j1, size);
    }
  }

  /** Position `i` of the list is sliced into chunk `j` of the chunks
      `Chunks` builds: there is a chunk `j`, and `i` falls in the stretch of
      the list it was sliced from. */
  predicate SlicedInto<T>(items: seq<T>, size: nat, width: nat, j: nat, i: nat)
    requires size >= 1
  {
    var c := Chunks(items, size, width);
    j < |c| && j * size <= i < j * size + |c[j]|
  }

  /** Position `i` of the list is sliced into some chunk. */
  ghost predicate SlicedSomewhere<T>(items: seq<T>, size: nat, width: nat, i: nat)
    requires size >= 1
  {
    exists j: nat :: SlicedInto(items, size, width, j, i)
  }

  /** `InChunk` describes the chunks `Chunks` builds. */
  lemma InChunkIsSliced<T>(items: seq<T>, size: nat, width: nat, j: nat, i: nat)
    requires size >= 1
    ensures InChunk(|items|, size, width, j, i) <==> SlicedInto(items, size, width, j, i)
  {
    var c := Chunks(items, size, width);
    if j < |c| {
      ChunkContents(items, 0, size, width);
      assert 0 + j * size < |items|;
      assert c[j] == items[j * size .. Min(j * size + width, |items|)];
      assert |c[j]| == Min(j * size + width, |items|) - j * size;
    } else {
      assert !SlicedInto(items, size, width, j, i);
      if |items| > 0 {
        ChunkCount(items, 0, size, width);
        MulLe(|c|, j, size);
        assert |items| <= j * size;
      }
      assert !InChunk(|items|, size, width, j, i);
    }
  }

  /** `CoverageIff` for the chunk sequence itself: every position of the
      list is sliced into some chunk exactly when the chunk size is at most
      the slice width. */
  lemma ChunksCoverIff<T>(items: seq<T>, size: nat, width: nat)
    requires 1 <= size <= |items|
    ensures (forall i: nat :: i < |items| ==> SlicedSomewhere(items, size, width, i)) <==> size <= width
  {
    CoverageIff(|items|, size, width);
    forall i: nat
      ensures Covered(|items|, size, width, i) <==> SlicedSomewhere(items, size, width, i)
    {
      forall j: nat
        ensures InChunk(|items|, size, width, j, i) <==> SlicedInto(items, size, width, j, i)
      {
        InChunkIsSliced(items, size, width, j, i);
      }
    }
  }

  /** `OverlapWhenNarrow` for the chunk sequence itself: the item at
      position `size` is both in the first chunk and the head of the
      second. */
  lemma ChunksOverlapWhenNarrow<T>(items: seq<T>, size: nat, width: nat)
    requires 1 <= size < width && size < |items|
    ensures var c := Chunks(items, size, width);
            && |c| >= 2 && |c[0]| > size && |c[1]| > 0
            && c[0][size] == items[size] && c[1][0] == items[size]
  {
    OverlapWhenNarrow(|items|, size, width);
    InChunkIsSliced(items, size, width, 0, size);
    InChunkIsSliced(items, size, width, 1, size);
    ChunkContents(items, 0, size, width);
  }

  /** `DisjointWhenWide` for the chunk sequence itself: no position of the
      list is sliced into two chunks. */
  lemma ChunksDisjointWhenWide<T>(items: seq<T>, size: nat, width: nat, j1: nat, j2: nat, i: nat)
    requires 1 <= width <= size
    requires SlicedInto(items, size, width, j1, i) && SlicedInto(items, size, width, j2, i)
    ensures j1 == j2
  {
    InChunkIsSliced(items, size, width, j1, i);
    InChunkIsSliced(items, size, width, j2, i);
    DisjointWhenWide(|items|, size, width, j1, j2, i);
  }

  /** Five houses and two workers: chunk size 3, but slices of width 100,
      so the second chunk repeats the last two houses of the first. */
  lemma FiveHousesTwoWorkers()
    ensures PlanFor(5, 2) == Ok(Plan(2, 3))
    ensures Chunks(['a', 'b', 'c', 'd', 'e'], 3, SliceWidth) == [['a', 'b', 'c', 'd', 'e'], ['d', 'e']]
  {
    var items := ['a', 'b', 'c', 'd', 'e'];
    assert ChunksFrom(items, 6, 3, SliceWidth) == [];
    assert ChunksFrom(items, 3, 3, SliceWidth) == [items[3..5]];
    assert Chunks(items, 3, SliceWidth) == [items[0..5], items[3..5]];
    assert items[0..5] == items;
    assert items[3..5] == ['d', 'e'];
  }

  /** The intended split of the same input: `[a, b, c]` and `[d, e]`. */
  lemma FiveHousesTwoWorkersIntended()
    ensures Chunks(['a', 'b', 'c', 'd', 'e'], 3, 3) == [['a', 'b', 'c'], ['d', 'e']]
  {
    var items := ['a', 'b', 'c', 'd', 'e'];
    assert ChunksFrom(items, 6, 3, 3) == [];
    assert ChunksFrom(items, 3, 3, 3) == [items[3..5]];
    assert Chunks(items, 3, 3) == [items[0..3], items[3..5]];
    assert items[0..3] == ['a', 'b', 'c'];
    assert items[3..5] == ['d', 'e'];
  }

  /** 150 houses and one worker: one chunk of 100, the last 50 houses are
      in no chunk. */
  lemma OneWorkerDropsTail<T>(items: seq<T>)
    requires |items| == 150
    ensures PlanFor(150, 1) == Ok(Plan(1, 150))
    ensures Chunks(items, 150, SliceWidth) == [items[..100]]
  {
    var r := Chunks(items, 150, SliceWidth);
    assert |r| == 1;
  }

  /** Five houses and four workers: chunk size 2, so three chunks for four
      workers; the count is `ceil(n / size)`, not the worker count. */
  lemma FewerChunksThanWorkers()
    ensures PlanFor(5, 4) == Ok(Plan(4, 2))
    ensures |Chunks(['a', 'b', 'c', 'd', 'e'], 2, SliceWidth)| == 3
  {
  }
}

=== FILE: data_collector.dfy ===
/** The collector: for each scraper, take the checkpoint from a stored
    record of the provider, take the listing, and either annotate and
    upsert every listed house in order or split the listing into chunks for
    a thread pool. */
module DataCollector {
  import opened Wrappers
  import opened Json
  import opened Paging
  import opened DbHandler
  import opened BaseScrapper
  import opened Chunking
  import OlxScrapper
  import ImovirtualScrapper

  /** The scrapers the collector knows. */
  datatype Scrapper =
    | Olx(olx: OlxScrapper.Site)
    | Imovirtual(imovirtual: ImovirtualScrapper.Site)

  function ProviderName(s: Scrapper): string {
    match s
    case Olx(_) => OlxScrapper.ProviderName
    case Imovirtual(_) => ImovirtualScrapper.ProviderName
  }

  function IsGetHouseRequest(s: Scrapper): bool {
    match s
    case Olx(_) => OlxScrapper.IsGetHouseRequest
    case Imovirtual(_) => ImovirtualScrapper.IsGetHouseRequest
  }

  /** `scrapper.get_house_list(min_date=...)` with the default `max_houses`,
      paired with the `get_house` valid afterwards. */
  function GetHouseList(s: Scrapper, minDate: Value): (r: Result<Listing>)
    ensures s.Olx? ==>
              && (r.Ok? <==> OlxScrapper.GetHouseList(s.olx, minDate, DefaultMaxHouses).Ok?)
              && (r.Ok? ==>
                    var (links, cache) := OlxScrapper.GetHouseList(s.olx, minDate, DefaultMaxHouses).value;
                    && r.value.links == links
                    && forall u :: r.value.getHouse(u) == OlxScrapper.GetHouse(cache, u))
    ensures s.Imovirtual? ==>
              && (r.Ok? <==> ImovirtualScrapper.GetHouseList(s.imovirtual, minDate, DefaultMaxHouses).Ok?)
              && (r.Ok? ==>
                    && r.value.links == ImovirtualScrapper.GetHouseList(s.imovirtual, minDate, DefaultMaxHouses).value
                    && forall u :: r.value.getHouse(u) == ImovirtualScrapper.GetHouse(s.imovirtual, u))
  {
    match s
    case Olx(site) =>
      var (links, cache) :- OlxScrapper.GetHouseList(site, minDate, DefaultMaxHouses);
      Ok(Listing(links, u => OlxScrapper.GetHouse(cache, u)))
    case Imovirtual(site) =>
      var links :- ImovirtualScrapper.GetHouseList(site, minDate, DefaultMaxHouses);
      Ok(Listing(links, u => ImovirtualScrapper.GetHouse(site, u)))
  }

  /** An OLX listing's `get_house` never raises the not-found error for a
      link of the listing. */
  lemma OlxListingLinksFetchable(site: OlxScrapper.Site, minDate: Value, u: string)
    requires OlxScrapper.GetHouseList(site, minDate, DefaultMaxHouses).Ok?
    requires u in OlxScrapper.GetHouseList(site, minDate, DefaultMaxHouses).value.0
    ensures GetHouseList(Olx(site), minDate).Ok?
    ensures u in GetHouseList(Olx(site), minDate).value.links
    ensures GetHouseList(Olx(site), minDate).value.getHouse(u) != Err(OlxScrapper.NotFound(u))
  {
    OlxScrapper.ReturnedLinksAreCached(site, minDate, DefaultMaxHouses, u);
  }

  /** The fields the collector sets on every fetched record. */
  const AnnotationKeys: set<string> := {"date_modified", "link", "available", "_id"}

  /** Annotate a fetched record: the change time, the link, the
      availability flag, and the link as `_id` when the scraper gave none. */
  function Annotate(house: Record, date: Timestamp, link: string): (r: Record)
    ensures r.Keys == house.Keys + AnnotationKeys
    ensures r["date_modified"] == VTime(date)
    ensures r["link"] == VStr(link)
    ensures r["available"] == VBool(true)
    ensures "_id" in house ==> r["_id"] == house["_id"]
    ensures "_id" !in house ==> r["_id"] == VStr(link)
    ensures forall k :: k in house && k !in AnnotationKeys ==> r[k] == house[k]
  {
    var h := house["date_modified" := VTime(date)]["link" := VStr(link)]["available" := VBool(true)];
    if "_id" !in h then h["_id" := VStr(link)] else h
  }

  /** The record `request_pool` would store for a link, if fetching it
      succeeds. */
  function Fetched(getHouse: Fetch, link: string): (r: Option<Record>)
    ensures r.None? <==> getHouse(link).Err?
    ensures r.Some? ==> "_id" in r.value
  {
    match getHouse(link)
    case Err(_) => None
    case Ok((house, date)) => Some(Annotate(house, date, link))
  }

  /** The collection after an upsert; an upsert that raises leaves it as
      it was. */
  function Upserted(c: Collection, rec: Record): (r: Collection)
    ensures "_id" in rec ==> r == InsertHouse(c, rec).value.collection
    ensures "_id" !in rec ==> r == c
  {
    match InsertHouse(c, rec)
    case Ok(u) => u.collection
    case Err(_) => c
  }

  /** One pass of the `request_pool` loop body: fetch, annotate, upsert
      into the provider's collection; any exception skips the link. */
  function Step(db: Db, provider: string, getHouse: Fetch, link: string): (r: Db)
    ensures getHouse(link).Err? ==> r == db
    ensures getHouse(link).Ok? ==> r == db[provider := Upserted(CollectionOf(db, provider), Fetched(getHouse, link).value)]
  {
    match Fetched(getHouse, link)
    case None => db
    case Some(rec) => db[provider := Upserted(CollectionOf(db, provider), rec)]
  }

  /** `request_pool`: the links handled in list order. */
  function RequestPoolFold(db: Db, provider: string, getHouse: Fetch, links: seq<string>): (r: Db)
    decreases |links|
  {
    if |links| == 0 then db else RequestPoolFold(Step(db, provider, getHouse, links[0]), provider, getHouse, links[1..])
  }

  /** The records of the links whose fetch succeeds, annotated, in list
      order. */
  function Successes(getHouse: Fetch, links: seq<string>): (r: seq<Record>)
    ensures |r| <= |links|
    ensures forall rec :: rec in r ==> "_id" in rec
    decreases |links|
  {
    if |links| == 0 then []
    else
      var rest := Successes(getHouse, links[1..]);
      match Fetched(getHouse, links[0])
      case None => rest
      case Some(rec) => [rec] + rest
  }

  /** `insert_house` applied to each record in turn. */
  function UpsertAll(c: Collection, recs: seq<Record>): Collection
    decreases |recs|
  {
    if |recs| == 0 then c else UpsertAll(Upserted(c, recs[0]), recs[1..])
  }

  /** Upserts never delete: every id stored before stays, and every record
      upserted ends up stored under its `_id`. */
  lemma {:induction false} UpsertAllStoresEach(c: Collection, recs: seq<Record>)
    requires forall rec :: rec in recs ==> "_id" in rec
    ensures c.Keys <= UpsertAll(c, recs).Keys
    ensures forall rec :: rec in recs ==> rec["_id"] in UpsertAll(c, recs)
    decreases |recs|
  {
    if |recs| > 0 {
      var c' := Upserted(c, recs[0]);
      assert recs[0] in recs;
      assert c.Keys <= c'.Keys by {
        var id := recs[0]["_id"];
        assert c' - {id} == c - {id};
        forall k | k in c
          ensures k in c'
        {
          if k != id {
            assert k in c - {id};
          }
        }
      }
      assert forall rec :: rec in recs[1..] ==> rec in recs;
      UpsertAllStoresEach(c', recs[1..]);
    }
  }

  /** `request_pool` only ever writes the provider's collection, and there
      it is exactly the upserts of the successfully fetched records, in
      order: failed links leave no trace. */
  lemma {:induction false} RequestPoolIsUpsertOfSuccesses(db: Db, provider: string, getHouse: Fetch, links: seq<string>)
    ensures var out := RequestPoolFold(db, provider, getHouse, links);
            && CollectionOf(out, provider) == UpsertAll(CollectionOf(db, provider), Successes(getHouse, links))
            && forall q :: q != provider ==> (q in out <==> q in db) && (q in db ==> out[q] == db[q])
    decreases |links|
  {
    if |links| > 0 {
      var db' := Step(db, provider, getHouse, links[0]);
      RequestPoolIsUpsertOfSuccesses(db', provider, getHouse, links[1..]);
    }
  }

  /** Handling `a + b` is handling `a`, then `b`. */
  lemma {:induction false} RequestPoolConcat(db: Db, provider: string, getHouse: Fetch, a: seq<string>, b: seq<string>)
    ensures RequestPoolFold(db, provider, getHouse, a + b)
            == RequestPoolFold(RequestPoolFold(db, provider, getHouse, a), provider, getHouse, b)
    decreases |a|
  {
    if |a| > 0 {
      assert (a + b)[1..] == a[1..] + b;
      RequestPoolConcat(Step(db, provider, getHouse, a[0]), provider, getHouse, a[1..], b);
    } else {
      assert a + b == b;
    }
  }

  /** Every upsert keeps each record stored under its own `_id`, so
      `request_pool` does too. */
  lemma {:induction false} RequestPoolKeepsWellFormed(db: Db, provider: string, getHouse: Fetch, links: seq<string>)
    requires WellFormed(CollectionOf(db, provider))
    ensures WellFormed(CollectionOf(RequestPoolFold(db, provider, getHouse, links), provider))
    decreases |links|
  {
    if |links| > 0 {
      var db' := Step(db, provider, getHouse, links[0]);
      assert WellFormed(CollectionOf(db', provider));
      RequestPoolKeepsWellFormed(db', provider, getHouse, links[1..]);
    }
  }

  /** `request_pool` as the loop it is: the store after each link is the
      fold over the links so far. */
  method RequestPool(db: Db, provider: string, getHouse: Fetch, links: seq<string>) returns (out: Db)
    ensures out == RequestPoolFold(db, provider, getHouse, links)
    ensures CollectionOf(out, provider) == UpsertAll(CollectionOf(db, provider), Successes(getHouse, links))
    ensures forall q :: q != provider ==> (q in out <==> q in db) && (q in db ==> out[q] == db[q])
  {
    out := db;
    var i := 0;
    while i < |links|
      invariant 0 <= i <= |links|
      invariant RequestPoolFold(out, provider, getHouse, links[i..]) == RequestPoolFold(db, provider, getHouse, links)
    {
      assert links[i..][1..] == links[i + 1..];
      out := Step(out, provider, getHouse, links[i]);
      i := i + 1;
    }
    assert links[i..] == [];
    RequestPoolIsUpsertOfSuccesses(db, provider, getHouse, links);
  }

  /** Handling the chunks one after the other. */
  function RequestPoolChunks(db: Db, provider: string, getHouse: Fetch, chunks: seq<seq<string>>): Db
    decreases |chunks|
  {
    if |chunks| == 0 then db
    else RequestPoolChunks(RequestPoolFold(db, provider, getHouse, chunks[0]), provider, getHouse, chunks[1..])
  }

  lemma {:induction false} RequestPoolChunksIsConcat(db: Db, provider: string, getHouse: Fetch, chunks: seq<seq<string>>)
    ensures RequestPoolChunks(db, provider, getHouse, chunks) == RequestPoolFold(db, provider, getHouse, Concat(chunks))
    decreases |chunks|
  {
    if |chunks| > 0 {
      RequestPoolChunksIsConcat(RequestPoolFold(db, provider, getHouse, chunks[0]), provider, getHouse, chunks[1..]);
      RequestPoolConcat(db, provider, getHouse, chunks[0], Concat(chunks[1..]));
    }
  }

  /** With slices as wide as the chunk size, handling the chunks one after
      the other stores exactly what handling the whole listing does. */
  lemma IntendedChunksMatchInline(db: Db, provider: string, getHouse: Fetch, links: seq<string>, size: nat)
    requires size >= 1
    ensures RequestPoolChunks(db, provider, getHouse, Chunks(links, size, size))
            == RequestPoolFold(db, provider, getHouse, links)
  {
    RequestPoolChunksIsConcat(db, provider, getHouse, Chunks(links, size, size));
    ChunksPartition(links, size);
  }

  /** The `min_date` to list from: none when there is no stored record
      (an empty record counts as none), else the record's
      `date_modified`, which must be there. */
  function Checkpoint(latest: Option<Record>): (r: Result<Value>)
    ensures latest.None? ==> r == Ok(VNull)
    ensures latest.Some? && latest.value == map[] ==> r == Ok(VNull)
    ensures latest.Some? && latest.value != map[] ==>
              (r.Ok? <==> "date_modified" in latest.value)
              && (r.Ok? ==> r.value == latest.value["date_modified"])
              && (r.Err? ==> r.error == KeyError("date_modified"))
  {
    match latest
    case None => Ok(VNull)
    case Some(rec) => if rec == map[] then Ok(VNull) else Get(rec, "date_modified")
  }

  /** The collector's settings. */
  datatype Config = Config(maxThreads: int, useThreading: bool)

  /** How a pass handed out the listing: to one inline `request_pool`, or
      as chunks to a pool of workers. */
  datatype Dispatch = Inline | Pooled(plan: Plan, chunks: seq<seq<string>>)

  datatype Pass = Pass(db: Db, dispatch: Dispatch)

  /** `process_scrapper` once its checkpoint record is known. On the
      threaded path the chunks are handed to the pool and the store is left
      as it is; inline, the whole listing goes through `request_pool`. The
      pass fails exactly when the checkpoint, the listing or the thread plan
      raises, with that exception. */
  function ProcessWith(db: Db, s: Scrapper, latest: Option<Record>, cfg: Config): (r: Result<Pass>)
    ensures r.Ok? <==>
              && Checkpoint(latest).Ok?
              && GetHouseList(s, Checkpoint(latest).value).Ok?
              && (IsGetHouseRequest(s) && cfg.useThreading ==>
                    PlanFor(|GetHouseList(s, Checkpoint(latest).value).value.links|, cfg.maxThreads).Ok?)
    ensures Checkpoint(latest).Err? ==> r == Err(Checkpoint(latest).error)
    ensures Checkpoint(latest).Ok? && GetHouseList(s, Checkpoint(latest).value).Err? ==>
              r == Err(GetHouseList(s, Checkpoint(latest).value).error)
    ensures r.Ok? ==>
              var listing := GetHouseList(s, Checkpoint(latest).value).value;
              var out := r.value.db;
              && (r.value.dispatch.Pooled? <==> IsGetHouseRequest(s) && cfg.useThreading)
              && (r.value.dispatch.Pooled? ==>
                    && out == db
                    && PlanFor(|listing.links|, cfg.maxThreads) == Ok(r.value.dispatch.plan)
                    && r.value.dispatch.chunks == Chunks(listing.links, r.value.dispatch.plan.size, SliceWidth))
              && (r.value.dispatch.Inline? ==>
                    CollectionOf(out, ProviderName(s))
                    == UpsertAll(CollectionOf(db, ProviderName(s)), Successes(listing.getHouse, listing.links)))
              && forall q :: q != ProviderName(s) ==> (q in out <==> q in db) && (q in db ==> out[q] == db[q])
    ensures Checkpoint(latest).Ok? && GetHouseList(s, Checkpoint(latest).value).Ok?
            && IsGetHouseRequest(s) && cfg.useThreading ==>
              var plan := PlanFor(|GetHouseList(s, Checkpoint(latest).value).value.links|, cfg.maxThreads);
              plan.Err? ==> r == Err(plan.error)
    ensures Checkpoint(latest).Ok? && GetHouseList(s, Checkpoint(latest).value).Ok?
            && IsGetHouseRequest(s) && cfg.useThreading ==>
              var n := |GetHouseList(s, Checkpoint(latest).value).value.links|;
              (r.Ok? <==> n >= 1 && cfg.maxThreads >= 1)
  {
    var minDate :- Checkpoint(latest);
    var listing :- GetHouseList(s, minDate);
    if IsGetHouseRequest(s) && cfg.useThreading then
      var plan :- PlanFor(|listing.links|, cfg.maxThreads);
      Ok(Pass(db, Pooled(plan, Chunks(listing.links, plan.size, SliceWidth))))
    else
      RequestPoolIsUpsertOfSuccesses(db, ProviderName(s), listing.getHouse, listing.links);
      Ok(Pass(RequestPoolFold(db, ProviderName(s), listing.getHouse, listing.links), Inline))
  }

  /** The pooled pass as written: every worker raises before it stores
      anything, so a threaded Imovirtual pass into an empty collection
      leaves it empty, while the same pass run inline stores every house
      it fetched. */
  lemma PooledPassStoresNothing(db: Db, site: ImovirtualScrapper.Site, latest: Option<Record>, cfg: Config)
    requires cfg.useThreading
    requires ProcessWith(db, Imovirtual(site), latest, cfg).Ok?
    requires CollectionOf(db, ImovirtualScrapper.ProviderName) == map[]
    requires var listing := GetHouseList(Imovirtual(site), Checkpoint(latest).value).value;
             Successes(listing.getHouse, listing.links) != []
    ensures CollectionOf(ProcessWith(db, Imovirtual(site), latest, cfg).value.db, ImovirtualScrapper.ProviderName) == map[]
    ensures ProcessWith(db, Imovirtual(site), latest, cfg.(useThreading := false)).Ok?
    ensures CollectionOf(ProcessWith(db, Imovirtual(site), latest, cfg.(useThreading := false)).value.db,
                         ImovirtualScrapper.ProviderName) != map[]
  {
    var listing := GetHouseList(Imovirtual(site), Checkpoint(latest).value).value;
    var recs := Successes(listing.getHouse, listing.links);
    assert recs[0] in recs;
    UpsertAllStoresEach(map[], recs);
  }

  /** `process_scrapper` with the pool given what it evidently should
      get: each worker runs `request_pool` on its own chunk, and the chunks
      are sliced by the chunk size. Whether threaded or not, it stores what
      the inline pass stores, and it fails exactly when the pass as
      written fails. */
  function ProcessIntended(db: Db, s: Scrapper, latest: Option<Record>, cfg: Config): (r: Result<Pass>)
    ensures r.Ok? <==> ProcessWith(db, s, latest, cfg).Ok?
    ensures r.Err? ==> ProcessWith(db, s, latest, cfg) == Err(r.error)
    ensures r.Ok? ==> ProcessWith(db, s, latest, cfg.(useThreading := false)).Ok?
                      && r.value.db == ProcessWith(db, s, latest, cfg.(useThreading := false)).value.db
    ensures r.Ok? && r.value.dispatch.Pooled? ==>
              Concat(r.value.dispatch.chunks) == GetHouseList(s, Checkpoint(latest).value).value.links
  {
    var minDate :- Checkpoint(latest);
    var listing :- GetHouseList(s, minDate);
    var provider := ProviderName(s);
    if IsGetHouseRequest(s) && cfg.useThreading then
      var plan :- PlanFor(|listing.links|, cfg.maxThreads);
      var chunks := Chunks(listing.links, plan.size, plan.size);
      IntendedChunksMatchInline(db, provider, listing.getHouse, listing.links, plan.size);
      ChunksPartition(listing.links, plan.size);
      Ok(Pass(RequestPoolChunks(db, provider, listing.getHouse, chunks), Pooled(plan, chunks)))
    else
      Ok(Pass(RequestPoolFold(db, provider, listing.getHouse, listing.links), Inline))
  }

  /** The records `get_latest_house` may return for a collection: none
      exactly when it is empty, otherwise one it holds. The sort key is
      never written, so no particular record is singled out. */
  predicate LatestOf(c: Collection, latest: Option<Record>) {
    && (latest.None? <==> c == map[])
    && (latest.Some? ==> latest.value in c.Values)
  }

  /** `process_scrapper`: look up a stored record of the provider, then run
      the pass from it. */
  method ProcessScrapper(db: Db, s: Scrapper, cfg: Config) returns (latest: Option<Record>, r: Result<Pass>)
    ensures LatestOf(CollectionOf(db, ProviderName(s)), latest)
    ensures r == ProcessWith(db, s, latest, cfg)
    ensures r.Ok? ==> forall q :: q != ProviderName(s) ==>
              (q in r.value.db <==> q in db) && (q in db ==> r.value.db[q] == db[q])
  {
    latest := GetLatestHouse(CollectionOf(db, ProviderName(s)));
    r := ProcessWith(db, s, latest, cfg);
  }

  /** What one pass leaves: the store after it, or its exception. */
  type PassFn = (Db, Scrapper, Option<Record>) -> Result<Db>

  /** `process_scrapper` from a given checkpoint record, as a pass. */
  function PassOf(cfg: Config): PassFn {
    (d: Db, s: Scrapper, l: Option<Record>) =>
      if ProcessWith(d, s, l, cfg).Ok? then Ok(ProcessWith(d, s, l, cfg).value.db)
      else Err(ProcessWith(d, s, l, cfg).error)
  }

  /** `process_scrapper` as `run_once` sees it: the store it leaves or
      the exception it raises. */
  method Advance(db: Db, s: Scrapper, cfg: Config) returns (latest: Option<Record>, next: Result<Db>)
    ensures LatestOf(CollectionOf(db, ProviderName(s)), latest)
    ensures PassOf(cfg)(db, s, latest) == next
    ensures next.Err? ==> ProcessWith(db, s, latest, cfg) == Err(next.error)
    ensures next.Ok? ==> forall q :: q != ProviderName(s) ==>
              (q in next.value <==> q in db) && (q in db ==> next.value[q] == db[q])
  {
    var r;
    latest, r := ProcessScrapper(db, s, cfg);
    next := if r.Ok? then Ok(r.value.db) else Err(r.error);
  }

  /** Pass `j` of a run ran on `stores[j]` from a checkpoint record
      `get_latest_house` may return there, and left `stores[j + 1]`. */
  predicate PassRecorded(pass: PassFn, ss: seq<Scrapper>, stores: seq<Db>, latests: seq<Option<Record>>, j: int)
    requires 0 <= j < |ss| && j < |latests| && j + 1 < |stores|
  {
    && LatestOf(CollectionOf(stores[j], ProviderName(ss[j])), latests[j])
    && pass(stores[j], ss[j], latests[j]) == Ok(stores[j + 1])
  }

  /** The passes a run has completed, one per checkpoint record, from the
      store `db`. */
  predicate History(pass: PassFn, db: Db, ss: seq<Scrapper>, stores: seq<Db>, latests: seq<Option<Record>>) {
    && |stores| == |latests| + 1 && |latests| <= |ss| && stores[0] == db
    && forall j :: 0 <= j < |latests| ==> PassRecorded(pass, ss, stores, latests, j)
  }

  /** A completed pass extends the history. */
  lemma HistoryExtends(pass: PassFn, db: Db, ss: seq<Scrapper>, stores: seq<Db>, latests: seq<Option<Record>>,
                       latest: Option<Record>, after: Db)
    requires History(pass, db, ss, stores, latests)
    requires |latests| < |ss|
    requires LatestOf(CollectionOf(stores[|latests|], ProviderName(ss[|latests|])), latest)
    requires pass(stores[|latests|], ss[|latests|], latest) == Ok(after)
    ensures History(pass, db, ss, stores + [after], latests + [latest])
  {
    var stores', latests' := stores + [after], latests + [latest];
    forall j | 0 <= j < |latests'|
      ensures PassRecorded(pass, ss, stores', latests', j)
    {
      assert stores'[j] == stores[j];
      if j < |latests| {
        assert PassRecorded(pass, ss, stores, latests, j);
        assert latests'[j] == latests[j] && stores'[j + 1] == stores[j + 1];
      } else {
        assert latests'[j] == latest && stores'[j + 1] == after;
      }
    }
  }

  /** The passes over `ss` in turn, pass `j` from checkpoint record
      `ls[j]`: the store after the last, or the exception of the first
      pass that raises. */
  function RunPasses(pass: PassFn, db: Db, ss: seq<Scrapper>, ls: seq<Option<Record>>): Result<Db>
    requires |ss| == |ls|
    decreases |ss|
  {
    if |ss| == 0 then Ok(db)
    else
      var d :- pass(db, ss[0], ls[0]);
      RunPasses(pass, d, ss[1..], ls[1..])
  }

  /** One more pass after passes that all succeeded: the run's outcome is
      that pass's outcome. */
  lemma {:induction false} RunPassesSnoc(pass: PassFn, db: Db, ss: seq<Scrapper>, ls: seq<Option<Record>>,
                                         s: Scrapper, l: Option<Record>)
    requires |ss| == |ls|
    requires RunPasses(pass, db, ss, ls).Ok?
    ensures RunPasses(pass, db, ss + [s], ls + [l]) == pass(RunPasses(pass, db, ss, ls).value, s, l)
    decreases |ss|
  {
    if |ss| == 0 {
      assert ss + [s] == [s] && ls + [l] == [l];
    } else {
      var d := pass(db, ss[0], ls[0]).value;
      assert (ss + [s])[1..] == ss[1..] + [s];
      assert (ls + [l])[1..] == ls[1..] + [l];
      RunPassesSnoc(pass, d, ss[1..], ls[1..], s, l);
    }
  }

  lemma PrefixSnoc<T>(s: seq<T>, n: nat)
    requires n < |s|
    ensures s[..n + 1] == s[..n] + [s[n]]
  {
  }

  /** `RunPassesSnoc` for the next prefix of the scrapers. */
  lemma RunPassesPrefix(pass: PassFn, db: Db, ss: seq<Scrapper>, ls: seq<Option<Record>>, l: Option<Record>)
    requires |ls| < |ss|
    requires RunPasses(pass, db, ss[..|ls|], ls).Ok?
    ensures RunPasses(pass, db, ss[..|ls| + 1], ls + [l]) == pass(RunPasses(pass, db, ss[..|ls|], ls).value, ss[|ls|], l)
  {
    PrefixSnoc(ss, |ls|);
    RunPassesSnoc(pass, db, ss[..|ls|], ls, ss[|ls|], l);
  }

  /** A history is the fold of its passes: running them in turn from `db`
      leaves the last recorded store. */
  lemma {:induction false} HistoryIsFold(pass: PassFn, db: Db, ss: seq<Scrapper>, stores: seq<Db>, latests: seq<Option<Record>>)
    requires History(pass, db, ss, stores, latests)
    ensures RunPasses(pass, db, ss[..|latests|], latests) == Ok(stores[|latests|])
    decreases |latests|
  {
    if |latests| > 0 {
      assert PassRecorded(pass, ss, stores, latests, 0);
      forall j | 0 <= j < |latests| - 1
        ensures PassRecorded(pass, ss[1..], stores[1..], latests[1..], j)
      {
        assert PassRecorded(pass, ss, stores, latests, j + 1);
        assert ss[1..][j] == ss[j + 1] && latests[1..][j] == latests[j + 1];
        assert stores[1..][j] == stores[j + 1] && stores[1..][j + 1] == stores[j + 2];
      }
      HistoryIsFold(pass, stores[1], ss[1..], stores[1..], latests[1..]);
      assert ss[..|latests|][1..] == ss[1..][..|latests| - 1];
    }
  }

  /** `run_once`: the scrapers in turn, with no handler around them. The
      first scraper that raises ends the run with that exception, and the
      ones after it are not processed. Returns the store, the store before
      each pass and after the last completed one, the checkpoint record of
      each completed pass, and the exception that ended the run with the
      checkpoint record of the pass that raised it, if any. */
  method RunOnce(db: Db, scrappers: seq<Scrapper>, cfg: Config)
    returns (out: Db, stores: seq<Db>, latests: seq<Option<Record>>, failure: Option<(Option<Record>, Error)>)
    ensures History(PassOf(cfg), db, scrappers, stores, latests)
    ensures out == stores[|latests|]
    ensures RunPasses(PassOf(cfg), db, scrappers[..|latests|], latests) == Ok(out)
    ensures failure.None? <==> |latests| == |scrappers|
    ensures failure.Some? ==>
              var (latest, e) := failure.value;
              && LatestOf(CollectionOf(out, ProviderName(scrappers[|latests|])), latest)
              && ProcessWith(out, scrappers[|latests|], latest, cfg) == Err(e)
              && RunPasses(PassOf(cfg), db, scrappers[..|latests| + 1], latests + [latest]) == Err(e)
    ensures forall q :: (forall j :: 0 <= j < |latests| ==> ProviderName(scrappers[j]) != q) ==>
              (q in out <==> q in db) && (q in db ==> out[q] == db[q])
  {
    out := db;
    stores := [db];
    latests := [];
    failure := None;
    while |latests| < |scrappers|
      invariant History(PassOf(cfg), db, scrappers, stores, latests)
      invariant out == stores[|latests|]
      invariant forall q :: (forall j :: 0 <= j < |latests| ==> ProviderName(scrappers[j]) != q) ==>
                  (q in out <==> q in db) && (q in db ==> out[q] == db[q])
      decreases |scrappers| - |latests|
    {
      var latest, next := Advance(out, scrappers[|latests|], cfg);
      if next.Err? {
        failure := Some((latest, next.error));
        HistoryIsFold(PassOf(cfg), db, scrappers, stores, latests);
        RunPassesPrefix(PassOf(cfg), db, scrappers, latests, latest);
        return;
      }
      HistoryExtends(PassOf(cfg), db, scrappers, stores, latests, latest, next.value);
      out := next.value;
      stores := stores + [out];
      latests := latests + [latest];
    }
    HistoryIsFold(PassOf(cfg), db, scrappers, stores, latests);
  }
}

=== FILE: db_handler.dfy ===
/** The document store as the collector uses it: one collection per
    provider, records keyed by their `_id`, an upsert that merges changed
    records field by field, and a "latest record" lookup. */
module DbHandler {
  import opened Wrappers
  import opened Json

  /** A collection: stored records by `_id`. */
  type Collection = map<Value, Record>

  /** The database: collections by name. */
  type Db = map<string, Collection>

  /** What an upsert did to the store. */
  datatype Write = Inserted | Updated | Unchanged

  datatype Upsert = Upsert(collection: Collection, write: Write)

  /** Every stored record carries the `_id` it is stored under. */
  ghost predicate WellFormed(c: Collection) {
    forall id :: id in c ==> "_id" in c[id] && c[id]["_id"] == id
  }

  /** A collection that was never written is empty. */
  function CollectionOf(db: Db, name: string): Collection {
    if name in db then db[name] else map[]
  }

  /** `insert_house`: insert a record under its `_id`; if one is stored
      there already and differs, update it with `$set`, which overwrites the
      fields `data` carries and keeps the others; if it is identical, write
      nothing. A record without `_id` raises before the store is touched. */
  function InsertHouse(c: Collection, data: Record): (r: Result<Upsert>)
    ensures r.Err? <==> "_id" !in data
    ensures r.Err? ==> r.error == KeyError("_id")
    ensures r.Ok? ==>
      var id := data["_id"];
      var stored := r.value.collection;
      && id in stored
      // the stored record agrees with `data` on every field of `data`
      && (forall k :: k in data ==> k in stored[id] && stored[id][k] == data[k])
      // fields only the old record had survive; nothing else appears
      && (id in c ==> forall k :: k in c[id] && k !in data ==> k in stored[id] && stored[id][k] == c[id][k])
      && (forall k :: k in stored[id] ==> k in data || (id in c && k in c[id]))
      && (id !in c ==> stored[id] == data)
      // records under any other `_id` are untouched
      && stored - {id} == c - {id}
      && (r.value.write == Inserted <==> id !in c)
      && (r.value.write == Unchanged <==> id in c && c[id] == data)
      && (r.value.write == Unchanged ==> stored == c)
    ensures r.Ok? && WellFormed(c) ==> WellFormed(r.value.collection)
  {
    if "_id" !in data then
      Err(KeyError("_id"))
    else
      var id := data["_id"];
      if id in c then
        if data != c[id] then
          Ok(Upsert(c[id := c[id] + data], Updated))
        else
          Ok(Upsert(c, Unchanged))
      else
        Ok(Upsert(c[id := data], Inserted))
  }

  /** Upserting the same record twice gives the store one upsert gives. The
      second call writes nothing exactly when the stored record has no field
      beyond those of `data`: with extra fields left from an older version,
      the stored record never equals `data`, and every later upsert of it is
      an (idempotent) update. */
  lemma InsertHouseIdempotent(c: Collection, data: Record)
    requires "_id" in data
    ensures
      var first := InsertHouse(c, data).value;
      var second := InsertHouse(first.collection, data).value;
      && second.collection == first.collection
      && second.write != Inserted
      && (second.write == Unchanged <==> first.collection[data["_id"]].Keys <= data.Keys)
  {
    var id := data["_id"];
    var first := InsertHouse(c, data).value;
    var stored := first.collection[id];
    if stored != data {
      assert stored + data == stored;
      assert first.collection[id := stored + data] == first.collection;
      assert !(stored.Keys <= data.Keys);
    }
  }

  /** `get_latest_house`: `find_one` sorted on `data_scrapped`, a field no
      record carries, so the store may return any record it holds; nothing
      only when the collection is empty. */
  method GetLatestHouse(c: Collection) returns (r: Option<Record>)
    ensures r.None? <==> c == map[]
    ensures r.Some? ==> exists id :: id in c && c[id] == r.value
  {
    if c == map[] {
      return None;
    }
    var id :| id in c;
    return Some(c[id]);
  }

  /** `insert_houses`: not implemented; it always raises and writes nothing. */
  function InsertHouses(c: Collection, data: seq<Record>): (r: Result<Collection>)
    ensures r.Err? && r.error == NotImplementedError
  {
    Err(NotImplementedError)
  }
}

=== FILE: imovirtual_scrapper.dfy ===
/** The Imovirtual scraper. The listing reads the search result pages and
    takes the `data-url` of each house article; `get_house` flattens the
    `ad` object of a house page's embedded JSON into a record. Fetching and
    HTML parsing are inputs. */
module ImovirtualScrapper {
  import opened Wrappers
  import opened Json
  import opened Text
  import opened Paging

  const ProviderName: string := "imovirtual"

  /** `get_house` requests the house page itself. */
  const IsGetHouseRequest: bool := true

  const ResultPerPage: int := 72

  /** The houses-for-sale listing both first pages start with, and the
      page size query they share. */
  const Base: string := "https://www.imovirtual.com/en/comprar/?"
  const PerPage: string := "nrAdsPerPage=72&"

  /** The first page of all houses for sale, written around `page=1`. */
  const Url: string := UrlHead + "page=1"
  const UrlHead: string := Base + PerPage

  /** The first page of the houses listed in the last `<DAYS_ELAPSED>` days. */
  const UrlSearch: string := SearchHead + "<DAYS_ELAPSED>" + SearchTail
  const SearchHead: string := Base + SearchKey
  const SearchTail: string := "&" + PerPage + "page=1"

  /** An `<article>` element, by its attributes. */
  datatype Article = Article(attrs: map<string, string>)

  /** What the site answers: the page count read off the pager of a first
      page (or the failure to find or parse it), the articles on the page
      at each url, the parsed JSON embedded in each house page, and the
      whole days between a time and now. */
  datatype Site = Site(
    pageCount: string -> Result<int>,
    articles: string -> seq<Article>,
    pages: string -> Result<Value>,
    daysSince: Timestamp -> int)

  /** The first page's url: the plain listing without `min_date`, the search
      for houses listed since then with it. Subtracting anything but a time
      from the current time raises. */
  function ListingUrl(site: Site, minDate: Value): (r: Result<string>)
    ensures minDate.VNull? ==> r == Ok(Url)
    ensures minDate.VTime? ==>
              r == Ok(ReplaceAll(UrlSearch, "<DAYS_ELAPSED>", Decimal(site.daysSince(minDate.t))))
    ensures r.Err? <==> !minDate.VNull? && !minDate.VTime?
    ensures r.Err? ==> r.error.TypeError?
  {
    match minDate
    case VNull => Ok(Url)
    case VTime(t) =>
      Ok(ReplaceAll(UrlSearch, "<DAYS_ELAPSED>", Decimal(site.daysSince(t))))
    case _ => Err(TypeError("unsupported operand type(s) for -"))
  }

  /** The url of page `i`: the first page's url with `page=1` replaced. */
  function PageUrl(base: string, page: int): string {
    ReplaceAll(base, "page=1", "page=" + Decimal(page))
  }

  /** Page 1 is the first page's url itself. */
  lemma FirstPageIsBase(base: string)
    ensures PageUrl(base, 1) == base
  {
    assert Decimal(1) == "1";
    assert "page=" + Decimal(1) == "page=1";
    ReplaceSelf(base, "page=1");
  }

  /** The page number is written into the plain listing's page urls. */
  lemma PageUrlCarriesPage(page: int)
    ensures Occurs(PageUrl(Url, page), "page=" + Decimal(page))
  {
    assert Url[|UrlHead|..|UrlHead| + 6] == "page=1";
    assert OccursAt(Url, "page=1", |UrlHead|);
    ReplacementOccurs(Url, "page=1", "page=" + Decimal(page));
  }

  /** No `page=1` starts before the `page=1` that follows the listing and
      a query free of `p`. */
  lemma NoPageBefore(x: string, t: string)
    requires 'p' !in x
    ensures forall i :: 0 <= i < |Base + x| ==> !OccursAt(Base + x + "page=1" + t, "page=1", i)
  {
    var s := Base + x + "page=1" + t;
    assert '=' !in Base;
    assert Base[35..] == "ar/?";
    forall i | 0 <= i < |Base + x|
      ensures !OccursAt(s, "page=1", i)
    {
      if i + 4 < |Base| {
        assert s[i + 4] == Base[i + 4];
        MismatchAt(s, "page=1", i, 4);
      } else if i < |Base| {
        assert s[i] == Base[35..][i - 35];
        MismatchAt(s, "page=1", i, 0);
      } else {
        assert s[i] == x[i - |Base|];
        MismatchAt(s, "page=1", i, 0);
      }
    }
  }

  /** Page `page` of the plain listing, written out. */
  lemma PlainPageUrlIs(page: int)
    ensures PageUrl(Url, page) == Base + PerPage + "page=" + Decimal(page)
  {
    assert 'p' !in PerPage;
    NoPageBefore(PerPage, "");
    assert Url == Base + PerPage + "page=1" + "";
    ReplaceOnce(Base + PerPage, "page=1", "page=" + Decimal(page), "");
  }

  /** The search's first page for `days`, written out. */
  lemma SearchUrlIs(days: int)
    ensures ReplaceAll(UrlSearch, "<DAYS_ELAPSED>", Decimal(days)) == SearchHead + Decimal(days) + SearchTail
  {
    assert '<' !in SearchHead && '<' !in SearchTail;
    var s := SearchHead + "<DAYS_ELAPSED>" + SearchTail;
    assert s[..|SearchHead|] == SearchHead;
    NoStartWithin(s, "<DAYS_ELAPSED>", 0, |SearchHead|);
    NoStartWithin(SearchTail, "<DAYS_ELAPSED>", 0, |SearchTail|);
    ReplaceOnce(SearchHead, "<DAYS_ELAPSED>", Decimal(days), SearchTail);
  }

  /** Page `page` of the search for `days`, written out: both numbers land
      where the site reads them. */
  lemma SearchPageUrlIs(days: int, page: int)
    ensures PageUrl(ReplaceAll(UrlSearch, "<DAYS_ELAPSED>", Decimal(days)), page)
            == Base + SearchQuery(days) + "page=" + Decimal(page)
  {
    SearchUrlIs(days);
    NoPInSearchQuery(days);
    NoPageBefore(SearchQuery(days), "");
    SearchUrlSplits(Decimal(days));
    ReplaceOnce(Base + SearchQuery(days), "page=1", "page=" + Decimal(page), "");
  }

  /** The search's first page, cut before its `page=1`. */
  lemma SearchUrlSplits(d: string)
    ensures SearchHead + d + SearchTail == Base + (SearchKey + d + "&" + PerPage) + "page=1" + ""
  {
    assert SearchTail == "&" + PerPage + "page=1";
    assert SearchHead == Base + SearchKey;
  }

  /** The search query up to its `page=` parameter. */
  function SearchQuery(days: int): string {
    SearchKey + Decimal(days) + "&" + PerPage
  }

  const SearchKey: string := "search%5Bcreated_since%5D="

  lemma NoPInSearchQuery(days: int)
    ensures 'p' !in SearchQuery(days)
  {
    var d := Decimal(days);
    var x := SearchQuery(days);
    assert 'p' !in SearchKey && 'p' !in "&" + PerPage;
    forall i | 0 <= i < |x|
      ensures x[i] != 'p'
    {
      if i < |SearchKey| {
        assert x[i] == SearchKey[i];
      } else if i < |SearchKey| + |d| {
        assert x[i] == d[i - |SearchKey|];
      } else {
        assert x[i] == ("&" + PerPage)[i - |SearchKey| - |d|];
      }
    }
  }

  /** The article's `data-url`, if it has one. */
  function DataUrlOf(a: Article): (r: seq<string>)
    ensures |r| <= 1
  {
    if "data-url" in a.attrs then [a.attrs["data-url"]] else []
  }

  /** Each article's `data-url`, if any, one article after the other. */
  function EachDataUrl(articles: seq<Article>): (r: seq<seq<string>>)
    ensures |r| == |articles|
    ensures forall j :: 0 <= j < |articles| ==> r[j] == DataUrlOf(articles[j])
  {
    seq(|articles|, j requires 0 <= j < |articles| => DataUrlOf(articles[j]))
  }

  /** The `data-url` of each article that has one, in document order. */
  function DataUrls(articles: seq<Article>): (r: seq<string>)
    ensures forall u :: u in r <==> exists a :: a in articles && "data-url" in a.attrs && a.attrs["data-url"] == u
    ensures |r| <= |articles|
    ensures r == Concat(EachDataUrl(articles))
    decreases |articles|
  {
    if |articles| == 0 then []
    else
      var a := articles[0];
      var rest := DataUrls(articles[1..]);
      assert forall b :: b in articles <==> b == a || b in articles[1..];
      assert EachDataUrl(articles) == [DataUrlOf(a)] + EachDataUrl(articles[1..]);
      if "data-url" in a.attrs then [a.attrs["data-url"]] + rest else rest
  }

  /** `s` backwards. */
  function Reverse<T(!new)>(s: seq<T>): (r: seq<T>)
    ensures |r| == |s|
    ensures forall j :: 0 <= j < |s| ==> r[j] == s[|s| - 1 - j]
    ensures forall x :: x in r <==> x in s
    decreases |s|
  {
    if |s| == 0 then []
    else
      assert forall x :: x in s <==> x == s[0] || x in s[1..];
      Reverse(s[1..]) + [s[0]]
  }

  /** `get_houses_links_from_page`: the articles' `data-url`s, skipping
      articles without one, last article first. */
  function LinksFromPage(articles: seq<Article>): (r: seq<string>)
    ensures |r| == |DataUrls(articles)|
    ensures forall j :: 0 <= j < |r| ==> r[j] == DataUrls(articles)[|r| - 1 - j]
    ensures forall u :: u in r <==> exists a :: a in articles && "data-url" in a.attrs && a.attrs["data-url"] == u
  {
    Reverse(DataUrls(articles))
  }

  /** The links on each visited page, in visiting order. */
  function PageLinks(site: Site, base: string, order: seq<int>): (r: seq<seq<string>>)
    ensures |r| == |order|
    ensures forall j :: 0 <= j < |r| ==> r[j] == LinksFromPage(site.articles(PageUrl(base, order[j])))
  {
    seq(|order|, j requires 0 <= j < |order| => LinksFromPage(site.articles(PageUrl(base, order[j]))))
  }

  /** The pages visited, `reversed(range(1, num_pages + 1))`: from the last
      page down to page 1. */
  function VisitOrder(numPages: int): (r: seq<int>)
    ensures |r| == Max(0, numPages)
    ensures forall j :: 0 <= j < |r| ==> r[j] == numPages - j && r[j] >= 1
  {
    Descending(1, numPages + 1)
  }

  /** Every link the pages `get_house_list` visits hold, in visiting order. */
  function AllLinks(site: Site, base: string, numPages: int): seq<string> {
    Concat(PageLinks(site, base, VisitOrder(numPages)))
  }

  /** `get_house_list`: pick the first page's url, read the page count off
      it, and collect the pages' links from the last page down, cut to the
      first `max_houses`. */
  function GetHouseList(site: Site, minDate: Value, maxHouses: int): (r: Result<seq<string>>)
    ensures r.Err? <==> ListingUrl(site, minDate).Err? || site.pageCount(ListingUrl(site, minDate).value).Err?
    ensures r.Ok? && maxHouses >= 0 ==>
              var base := ListingUrl(site, minDate).value;
              var all := AllLinks(site, base, site.pageCount(base).value);
              && r.value == Prefix(all, maxHouses)
              && |r.value| == Min(maxHouses, |all|)
  {
    var base :- ListingUrl(site, minDate);
    var numPages :- site.pageCount(base);
    var all := AllLinks(site, base, numPages);
    assert [] + all == all;
    Ok(Collect(PageLinks(site, base, VisitOrder(numPages)), [], maxHouses))
  }

  const SelectedKeys: set<string> :=
    { "advertType", "description", "exclusiveOffer", "title", "features" }

  /** `ad["category"]["name"][0]["value"]`. */
  function CategoryOf(data: Record): (r: Result<Value>)
    ensures "category" !in data ==> r == Err(KeyError("category"))
    ensures r.Err? ==> AccessError(r.error)
    ensures r.Ok? <==>
              && "category" in data && data["category"].VMap?
              && "name" in data["category"].fields
              && var names := data["category"].fields["name"];
                 && names.VList? && |names.items| > 0
                 && names.items[0].VMap? && "value" in names.items[0].fields
    ensures r.Ok? ==> r.value == data["category"].fields["name"].items[0].fields["value"]
  {
    var category :- Get(data, "category");
    var names :- Field(category, "name");
    var first :- First(names);
    Field(first, "value")
  }

  /** The selected keys, the category, `_id` from `id`, the description with
      its break tags stripped, and the parsed creation time. */
  function Head(data: Record): (r: Result<Record>)
    ensures "category" !in data ==> r == Err(KeyError("category"))
    ensures r.Err? ==> AccessError(r.error)
    ensures r.Ok? <==>
              && CategoryOf(data).Ok?
              && "id" in data && "description" in data && data["description"].VStr?
              && "createdAt" in data && data["createdAt"].VStr?
    ensures r.Ok? ==>
              && r.value.Keys == data.Keys * SelectedKeys + {"category", "_id", "description", "createdAt"}
              && r.value["category"] == CategoryOf(data).value
              && r.value["_id"] == data["id"]
              && r.value["description"] == VStr(StripBreaks(data["description"].s))
              && r.value["createdAt"] == VTime(Timestamp(data["createdAt"].s))
              && forall k :: k in r.value && k !in {"category", "_id", "description", "createdAt"} ==>
                   r.value[k] == data[k]
  {
    var selected := Restrict(data, SelectedKeys);
    var category :- CategoryOf(data);
    var id :- Get(data, "id");
    var s := selected["category" := category]["_id" := id];
    var description :- Get(s, "description");
    var text :- AsText(description);
    var raw :- Get(data, "createdAt");
    var created :- ParseTime(raw);
    Ok(s["description" := VStr(StripBreaks(text))]["createdAt" := VTime(created)])
  }

  /** One characteristic: its `value` under its `key`. */
  function Characteristic(c: Value): (r: Result<(string, Value)>)
    ensures r.Ok? <==> c.VMap? && "value" in c.fields && "key" in c.fields && c.fields["key"].VStr?
    ensures r.Ok? ==> r.value == (c.fields["key"].s, c.fields["value"])
    ensures r.Err? ==> AccessError(r.error)
  {
    var value :- Field(c, "value");
    var key :- Field(c, "key");
    var k :- AsKey(key);
    Ok((k, value))
  }

  /** The assignments the characteristics make, in order; the first
      malformed one raises. */
  function Characteristics(cs: seq<Value>): (r: Result<seq<(string, Value)>>)
    ensures r.Ok? <==> forall j :: 0 <= j < |cs| ==> Characteristic(cs[j]).Ok?
    ensures r.Ok? ==> |r.value| == |cs| && forall j :: 0 <= j < |cs| ==> r.value[j] == Characteristic(cs[j]).value
    ensures r.Err? ==> AccessError(r.error)
    decreases |cs|
  {
    if |cs| == 0 then
      Ok([])
    else
      var first := Characteristic(cs[0]);
      var rest := Characteristics(cs[1..]);
      assert forall j :: 1 <= j < |cs| ==> cs[j] == cs[1..][j - 1];
      if first.Err? then
        Err(first.error)
      else if rest.Err? then
        assert exists j :: 1 <= j < |cs| && Characteristic(cs[j]).Err? by {
          var j :| 0 <= j < |cs[1..]| && Characteristic(cs[1..][j]).Err?;
          assert Characteristic(cs[j + 1]).Err?;
        }
        Err(rest.error)
      else
        Ok([first.value] + rest.value)
  }

  /** The coordinates, not crossed: `longitude` from the location's
      `coordinates.longitude`, `latitude` from `coordinates.latitude`. */
  function Coordinates(s: Record, location: Value): (r: Result<Record>)
    ensures r.Err? ==> AccessError(r.error)
    ensures r.Ok? <==>
              && location.VMap? && "coordinates" in location.fields
              && location.fields["coordinates"].VMap?
              && "longitude" in location.fields["coordinates"].fields
              && "latitude" in location.fields["coordinates"].fields
    ensures r.Ok? ==>
              var coordinates := location.fields["coordinates"].fields;
              && r.value.Keys == s.Keys + {"longitude", "latitude"}
              && r.value["longitude"] == coordinates["longitude"]
              && r.value["latitude"] == coordinates["latitude"]
              && forall k :: k in s && k != "longitude" && k != "latitude" ==> r.value[k] == s[k]
  {
    var coordinates :- Field(location, "coordinates");
    var longitude :- Field(coordinates, "longitude");
    var latitude :- Field(coordinates, "latitude");
    Ok(s["longitude" := longitude]["latitude" := latitude])
  }

  /** The `ad` object of a house page's JSON. A non-dict `ad` makes the
      key selection or the category lookup raise `TypeError`. */
  function Ad(parsed: Value): (r: Result<Record>)
    ensures r.Err? ==> AccessError(r.error)
    ensures r.Ok? <==>
              && parsed.VMap? && "props" in parsed.fields
              && parsed.fields["props"].VMap? && "pageProps" in parsed.fields["props"].fields
              && parsed.fields["props"].fields["pageProps"].VMap?
              && "ad" in parsed.fields["props"].fields["pageProps"].fields
              && parsed.fields["props"].fields["pageProps"].fields["ad"].VMap?
    ensures r.Ok? ==> parsed.fields["props"].fields["pageProps"].fields["ad"] == VMap(r.value)
  {
    var props :- Field(parsed, "props");
    var pageProps :- Field(props, "pageProps");
    var ad :- Field(pageProps, "ad");
    if ad.VMap? then Ok(ad.fields) else Err(TypeError("ad is not a dict"))
  }

  /** A category whose `name` is a non-empty list starting with a dict
      that has a `value`. */
  predicate WellFormedCategory(data: Record) {
    && "category" in data && data["category"].VMap?
    && "name" in data["category"].fields
    && var names := data["category"].fields["name"];
       && names.VList? && |names.items| > 0
       && names.items[0].VMap? && "value" in names.items[0].fields
  }

  /** A location dict with `coordinates` holding both coordinates, and an
      `address` dict whose dict-valued entries all have a `name`. */
  predicate WellFormedLocation(location: Value) {
    && location.VMap?
    && "coordinates" in location.fields && location.fields["coordinates"].VMap?
    && "longitude" in location.fields["coordinates"].fields
    && "latitude" in location.fields["coordinates"].fields
    && "address" in location.fields && location.fields["address"].VMap?
    && var address := location.fields["address"].fields;
       forall k :: k in address && address[k].VMap? ==> "name" in address[k].fields
  }

  /** An `ad` object every step of `get_house` reads without raising. */
  predicate WellFormedAdData(data: Record) {
    && WellFormedCategory(data)
    && "id" in data && "description" in data && data["description"].VStr?
    && "createdAt" in data && data["createdAt"].VStr?
    && "characteristics" in data && data["characteristics"].VList?
    && (var cs := data["characteristics"].items;
        forall j :: 0 <= j < |cs| ==>
          cs[j].VMap? && "value" in cs[j].fields && "key" in cs[j].fields && cs[j].fields["key"].VStr?)
    && "location" in data && WellFormedLocation(data["location"])
    && "modifiedAt" in data && data["modifiedAt"].VStr?
  }

  /** A house page whose `props.pageProps.ad` is a well-formed `ad` object. */
  predicate WellFormedAd(parsed: Value) {
    && parsed.VMap? && "props" in parsed.fields
    && parsed.fields["props"].VMap? && "pageProps" in parsed.fields["props"].fields
    && parsed.fields["props"].fields["pageProps"].VMap?
    && "ad" in parsed.fields["props"].fields["pageProps"].fields
    && parsed.fields["props"].fields["pageProps"].fields["ad"].VMap?
    && WellFormedAdData(parsed.fields["props"].fields["pageProps"].fields["ad"].fields)
  }

  /** `get_house` from the page's parsed JSON on. The time returned is the
      ad's `modifiedAt`; the record keeps `createdAt`. */
  function Flatten(parsed: Value): (r: Result<(Record, Timestamp)>)
    ensures r.Err? ==> AccessError(r.error)
    ensures WellFormedAd(parsed) ==> r.Ok?
    ensures r.Ok? ==>
              var (rec, t) := r.value;
              && Ad(parsed).Ok?
              && var data := Ad(parsed).value;
                 && Head(data).Ok?
                 && "modifiedAt" in data && data["modifiedAt"] == VStr(t.text)
                 && "createdAt" in rec
                 && {"category", "_id", "description", "createdAt", "longitude", "latitude"} <= rec.Keys
  {
    var data :- Ad(parsed);
    var s0 :- Head(data);
    var characteristics :- Get(data, "characteristics");
    var list :- Elements(characteristics);
    var pairs :- Characteristics(list);
    var s1 := Assign(s0, pairs);
    AssignLastWins(s0, pairs);
    var location :- Get(data, "location");
    var s2 :- Coordinates(s1, location);
    var address :- Field(location, "address");
    var entries :- AsMap(address);
    var names :- NamedEntries(entries);
    var s3 := s2 + names;
    var raw :- Get(data, "modifiedAt");
    var modified :- ParseTime(raw);
    Ok((s3, modified))
  }

  /** `get_house`: fetch and parse the house page, then flatten it. */
  function GetHouse(site: Site, link: string): (r: Result<(Record, Timestamp)>)
    ensures site.pages(link).Err? ==> r == Err(site.pages(link).error)
    ensures site.pages(link).Ok? ==> r == Flatten(site.pages(link).value)
  {
    var parsed :- site.pages(link);
    Flatten(parsed)
  }

  /** Characteristics are assigned in order, so a later one overwrites an
      earlier one with the same key. */
  lemma LaterCharacteristicWins(s: Record, cs: seq<Value>, i: nat, j: nat)
    requires Characteristics(cs).Ok?
    requires i < j < |cs|
    requires Characteristic(cs[i]).value.0 == Characteristic(cs[j]).value.0
    requires forall l :: j < l < |cs| ==> Characteristic(cs[l]).value.0 != Characteristic(cs[j]).value.0
    ensures var (k, v) := Characteristic(cs[j]).value;
            var rec := Assign(s, Characteristics(cs).value);
            k in rec && rec[k] == v
  {
    var pairs := Characteristics(cs).value;
    var (k, v) := pairs[j];
    AssignLastWins(s, pairs);
    var last := LastValue(pairs, k);
    assert last.Some?;
    var m :| 0 <= m < |pairs| && pairs[m] == (k, last.value)
             && forall m' :: m < m' < |pairs| ==> pairs[m'].0 != k;
    assert m == j;
  }
}

=== FILE: json.dfy ===
/** Parsed JSON values as the scrapers see them after `json.loads`, with the
    Python operations the flattening code applies to them (`d[k]`, `v[0]`,
    `k in v`, `.items()`, `.replace`, iteration, `strptime`). */
module Json {
  import opened Wrappers
  import Text

  /** A point in time, kept opaque: the text it was parsed from. */
  datatype Timestamp = Timestamp(text: string)

  /** A parsed JSON value; `VNull` is Python's `None` and `VTime` a `datetime`. */
  datatype Value =
    | VNull
    | VBool(b: bool)
    | VInt(i: int)
    | VStr(s: string)
    | VTime(t: Timestamp)
    | VList(items: seq<Value>)
    | VMap(fields: map<string, Value>)

  /** A flat record: a dict from field name to value. */
  type Record = map<string, Value>

  /** The exceptions reading a parsed value can raise: a missing key, a
      value of the wrong type, a missing method, an empty list. */
  predicate AccessError(e: Error) {
    e.KeyError? || e.TypeError? || e.AttributeError? || e.IndexError?
  }

  /** `m[k]` on a dict. */
  function Get(m: Record, k: string): (r: Result<Value>)
    ensures r.Err? ==> AccessError(r.error)
    ensures r.Ok? <==> k in m
    ensures r.Ok? ==> r.value == m[k]
    ensures r.Err? ==> r.error == KeyError(k)
  {
    if k in m then Ok(m[k]) else Err(KeyError(k))
  }

  /** `v[k]` with a string key: only a dict accepts one. */
  function Field(v: Value, k: string): (r: Result<Value>)
    ensures r.Err? ==> AccessError(r.error)
    ensures r.Ok? <==> v.VMap? && k in v.fields
    ensures r.Ok? ==> r.value == v.fields[k]
  {
    match v
    case VMap(m) => Get(m, k)
    case _ => Err(TypeError("value is not subscriptable by a string"))
  }

  /** `v[0]`: the first element of a list or the first character of a string. */
  function First(v: Value): (r: Result<Value>)
    ensures r.Err? ==> AccessError(r.error)
    ensures v.VList? && |v.items| > 0 ==> r == Ok(v.items[0])
    ensures v.VList? && |v.items| == 0 ==> r == Err(IndexError)
  {
    match v
    case VList(xs) => if |xs| > 0 then Ok(xs[0]) else Err(IndexError)
    case VStr(s) => if |s| > 0 then Ok(VStr(s[..1])) else Err(IndexError)
    case VMap(_) => Err(KeyError("0"))
    case _ => Err(TypeError("value is not subscriptable"))
  }

  /** The test `k in v`: a key of a dict, an element of a list, a substring
      of a string; any other value raises. */
  function Contains(v: Value, k: string): (r: Result<bool>)
    ensures r.Ok? <==> v.VMap? || v.VList? || v.VStr?
    ensures v.VMap? ==> r == Ok(k in v.fields)
    ensures r.Err? ==> AccessError(r.error)
  {
    match v
    case VMap(m) => Ok(k in m)
    case VList(xs) => Ok(VStr(k) in xs)
    case VStr(s) => Ok(Text.Occurs(s, k))
    case _ => Err(TypeError("argument is not iterable"))
  }

  /** `v.items()`: only a dict has it. */
  function AsMap(v: Value): (r: Result<Record>)
    ensures r.Err? ==> AccessError(r.error)
    ensures r.Ok? <==> v.VMap?
    ensures r.Ok? ==> r.value == v.fields
  {
    if v.VMap? then Ok(v.fields) else Err(AttributeError("value has no attribute 'items'"))
  }

  /** `v.replace(...)`: only a string has it. */
  function AsText(v: Value): (r: Result<string>)
    ensures r.Err? ==> AccessError(r.error)
    ensures r.Ok? <==> v.VStr?
    ensures r.Ok? ==> r.value == v.s
  {
    if v.VStr? then Ok(v.s) else Err(AttributeError("value has no attribute 'replace'"))
  }

  /** A value used as a field name. Only strings can name a stored field. */
  function AsKey(v: Value): (r: Result<string>)
    ensures r.Err? ==> AccessError(r.error)
    ensures r.Ok? <==> v.VStr?
    ensures r.Ok? ==> r.value == v.s
  {
    if v.VStr? then Ok(v.s) else Err(TypeError("field names must be strings"))
  }

  /** The elements a `for x in v` loop hands to a body that subscripts each
      `x` with a string key. A list yields its elements; an empty string or
      dict yields nothing; a non-empty string or dict yields strings, which
      make the body raise `TypeError`; any other value is not iterable. */
  function Elements(v: Value): (r: Result<seq<Value>>)
    ensures r.Err? ==> AccessError(r.error)
    ensures v.VList? ==> r == Ok(v.items)
    ensures r.Ok? ==> v.VList? || r.value == []
  {
    match v
    case VList(xs) => Ok(xs)
    case VStr(s) => if |s| == 0 then Ok([]) else Err(TypeError("string indices must be integers"))
    case VMap(m) => if m == map[] then Ok([]) else Err(TypeError("string indices must be integers"))
    case _ => Err(TypeError("value is not iterable"))
  }

  /** `datetime.strptime(v, ...)`: the argument must be a string. The format
      itself is not checked; the result keeps the text it came from. */
  function ParseTime(v: Value): (r: Result<Timestamp>)
    ensures r.Err? ==> AccessError(r.error)
    ensures r.Ok? <==> v.VStr?
    ensures r.Ok? ==> r.value.text == v.s
  {
    if v.VStr? then Ok(Timestamp(v.s)) else Err(TypeError("strptime() argument 1 must be str"))
  }

  /** `{k: m[k] for k in keys if k in m}`. */
  function Restrict(m: Record, keys: set<string>): (r: Record)
    ensures r.Keys == m.Keys * keys
    ensures forall k :: k in r ==> r[k] == m[k]
  {
    map k | k in m && k in keys :: m[k]
  }

  /** The value the last pair with key `k` carries, if any. */
  function LastValue(pairs: seq<(string, Value)>, k: string): (r: Option<Value>)
    ensures r.None? <==> forall j :: 0 <= j < |pairs| ==> pairs[j].0 != k
    ensures r.Some? ==> exists j :: 0 <= j < |pairs| && pairs[j] == (k, r.value)
                                  && forall j' :: j < j' < |pairs| ==> pairs[j'].0 != k
    decreases |pairs|
  {
    if |pairs| == 0 then None
    else
      var later := LastValue(pairs[1..], k);
      if later.Some? then
        assert forall j :: 0 < j < |pairs| ==> pairs[j] == pairs[1..][j - 1];
        later
      else if pairs[0].0 == k then Some(pairs[0].1)
      else None
  }

  /** `for (k, v) in pairs: m[k] = v`: the pairs are assigned in order. */
  function Assign(m: Record, pairs: seq<(string, Value)>): (r: Record)
    decreases |pairs|
  {
    if |pairs| == 0 then m else Assign(m[pairs[0].0 := pairs[0].1], pairs[1..])
  }

  /** Assigning in order means the last pair for a key wins, keys no pair
      names keep their value, and no other key appears. */
  lemma {:induction false} AssignLastWins(m: Record, pairs: seq<(string, Value)>)
    ensures forall k :: LastValue(pairs, k).Some? ==> k in Assign(m, pairs) && Assign(m, pairs)[k] == LastValue(pairs, k).value
    ensures forall k :: k in m && LastValue(pairs, k).None? ==> k in Assign(m, pairs) && Assign(m, pairs)[k] == m[k]
    ensures forall k :: k in Assign(m, pairs) ==> k in m || LastValue(pairs, k).Some?
    decreases |pairs|
  {
    if |pairs| > 0 {
      AssignLastWins(m[pairs[0].0 := pairs[0].1], pairs[1..]);
    }
  }

  /** `for k, v in m.items(): if isinstance(v, dict): out[k] = v["name"]`:
      the names of the dict-valued entries; a dict without `name` raises. */
  function NamedEntries(m: Record): (r: Result<Record>)
    ensures r.Err? ==> AccessError(r.error)
    ensures r.Ok? <==> forall k :: k in m && m[k].VMap? ==> "name" in m[k].fields
    ensures r.Ok? ==> r.value.Keys == set k | k in m && m[k].VMap?
    ensures r.Ok? ==> forall k :: k in r.value ==> r.value[k] == m[k].fields["name"]
  {
    if forall k :: k in m && m[k].VMap? ==> "name" in m[k].fields then
      Ok(map k | k in m && m[k].VMap? :: m[k].fields["name"])
    else
      Err(KeyError("name"))
  }
}

=== FILE: olx_scrapper.dfy ===
/** The OLX scraper. The listing reads the result pages of OLX's offers
    API, keeps every house object it sees in a cache keyed by url, and
    returns the urls; `get_house` flattens a cached house object into a
    record. The pages' parsed JSON is an input. */
module OlxScrapper {
  import opened Wrappers
  import opened Json
  import opened Text
  import opened Paging

  const ProviderName: string := "olx"

  /** `get_house` reads the cache and makes no request of its own. */
  const IsGetHouseRequest: bool := false

  const ResultPerPage: int := 40

  /** The first page's url, written around its `offset=0` parameter. */
  const Url: string := UrlHead + "offset=0" + UrlTail
  const UrlHead: string := "https://www.olx.pt/api/v1/offers/?"
  const UrlTail: string := "&limit=40" + "&category_id=16" + "&sort_by=created_at" + "%3Adesc"

  /** One house of a result page: its `url` and the house object. */
  datatype Entry = Entry(url: string, house: Record)

  /** What the API answers: the `visible_total_count` of the first page
      (or the failure to read it), and the houses on the page at each url. */
  datatype Site = Site(total: Result<int>, entries: string -> seq<Entry>)

  /** The scraper's `houses` dict: house objects by url. */
  type Cache = map<string, Record>

  /** `num_elements // RESULT_PER_PAGE + 1` (floor division). */
  function NumPages(total: int): int {
    total / ResultPerPage + 1
  }

  /** The pages visited, `reversed(range(1, num_pages))`: from the last page
      down to page 1. Page 0, at offset 0, is never requested. */
  function VisitOrder(total: int): (r: seq<int>)
    ensures |r| == if total >= 0 then total / ResultPerPage else 0
    ensures forall j :: 0 <= j < |r| ==> r[j] == |r| - j
  {
    Descending(1, NumPages(total))
  }

  /** The url of a page: the first page's url with `offset=0` replaced by
      the page's offset. */
  function PageUrl(page: int): string {
    ReplaceAll(Url, "offset=0", "offset=" + Decimal(page * ResultPerPage))
  }

  /** The page's offset is written into its url. */
  lemma PageUrlCarriesOffset(page: int)
    ensures Occurs(PageUrl(page), "offset=" + Decimal(page * ResultPerPage))
  {
    assert Url[|UrlHead|..|UrlHead| + 8] == "offset=0";
    assert OccursAt(Url, "offset=0", |UrlHead|);
    ReplacementOccurs(Url, "offset=0", "offset=" + Decimal(page * ResultPerPage));
  }

  /** Each page's url is the first page's url with exactly its offset
      written in place of `0`: `offset=0` occurs there once. */
  lemma PageUrlIs(page: int)
    ensures PageUrl(page) == UrlHead + "offset=" + Decimal(page * ResultPerPage) + UrlTail
  {
    NoOffsetInHead();
    NoOffsetInTail();
    ReplaceOnce(UrlHead, "offset=0", "offset=" + Decimal(page * ResultPerPage), UrlTail);
  }

  /** No `offset=0` starts inside the url's head. */
  lemma NoOffsetInHead()
    ensures forall i :: 0 <= i < |UrlHead| ==> !OccursAt(Url, "offset=0", i)
  {
    assert '=' !in UrlHead;
    assert UrlHead[27..] == "ffers/?";
    forall i | 0 <= i < |UrlHead|
      ensures !OccursAt(Url, "offset=0", i)
    {
      if i + 6 < |UrlHead| {
        assert Url[i + 6] == UrlHead[i + 6];
        MismatchAt(Url, "offset=0", i, 6);
      } else {
        assert Url[i] == UrlHead[27..][i - 27];
        MismatchAt(Url, "offset=0", i, 0);
      }
    }
  }

  lemma NoFInTail()
    ensures 'f' !in UrlTail
  {
    assert 'f' !in "&limit=40";
    assert 'f' !in "&category_id=16";
    assert 'f' !in "&sort_by=created_at";
    assert 'f' !in "%3Adesc";
  }

  /** The url's tail holds no `f`, so no `offset=0`. */
  lemma NoOffsetInTail()
    ensures !Occurs(UrlTail, "offset=0")
  {
    NoFInTail();
    forall i | 0 <= i <= |UrlTail|
      ensures !OccursAt(UrlTail, "offset=0", i)
    {
      if i + 1 < |UrlTail| {
        MismatchAt(UrlTail, "offset=0", i, 1);
      }
    }
  }

  /** The urls of a page's houses, in page order. */
  function Urls(entries: seq<Entry>): (r: seq<string>)
    ensures |r| == |entries|
    ensures forall j :: 0 <= j < |r| ==> r[j] == entries[j].url
  {
    seq(|entries|, j requires 0 <= j < |entries| => entries[j].url)
  }

  /** No entry after the `j`th has the same url. */
  predicate LastWith(entries: seq<Entry>, j: int)
    requires 0 <= j < |entries|
  {
    forall l :: j < l < |entries| ==> entries[l].url != entries[j].url
  }

  /** `for house in page: houses[house["url"]] = house`: the page's urls
      are added and the urls the page does not list keep their house. */
  function Remember(cache: Cache, entries: seq<Entry>): (r: Cache)
    ensures forall u :: u in r <==> u in cache || u in Urls(entries)
    ensures forall u :: u in cache && u !in Urls(entries) ==> r[u] == cache[u]
    decreases |entries|
  {
    if |entries| == 0 then cache
    else
      assert Urls(entries) == [entries[0].url] + Urls(entries[1..]);
      Remember(cache[entries[0].url := entries[0].house], entries[1..])
  }

  /** The houses are cached in page order, so the last house listed under
      a url is the one cached. */
  lemma {:induction false} RememberLastWins(cache: Cache, entries: seq<Entry>, j: int)
    requires 0 <= j < |entries| && LastWith(entries, j)
    ensures entries[j].url in Remember(cache, entries)
    ensures Remember(cache, entries)[entries[j].url] == entries[j].house
    decreases |entries|
  {
    var e := entries[0];
    var rest := entries[1..];
    assert Urls(entries) == [e.url] + Urls(rest);
    if j > 0 {
      forall l | j - 1 < l < |rest|
        ensures rest[l].url != rest[j - 1].url
      {
        assert rest[l] == entries[l + 1];
      }
      assert rest[j - 1] == entries[j];
      RememberLastWins(cache[e.url := e.house], rest, j - 1);
    }
  }

  /** Every house a page caches is listed on the page under its url. */
  lemma {:induction false} RememberListed(cache: Cache, entries: seq<Entry>, u: string)
    requires u in Urls(entries)
    ensures Entry(u, Remember(cache, entries)[u]) in entries
    decreases |entries|
  {
    var e := entries[0];
    var rest := entries[1..];
    assert Urls(entries) == [e.url] + Urls(rest);
    if u in Urls(rest) {
      RememberListed(cache[e.url := e.house], rest, u);
      assert forall x :: x in rest ==> x in entries;
    } else {
      assert entries[0] == Entry(u, e.house);
    }
  }

  /** The houses on each visited page, in visiting order. */
  function VisitedPages(site: Site, order: seq<int>): (r: seq<seq<Entry>>)
    ensures |r| == |order|
    ensures forall j :: 0 <= j < |r| ==> r[j] == site.entries(PageUrl(order[j]))
  {
    seq(|order|, j requires 0 <= j < |order| => site.entries(PageUrl(order[j])))
  }

  /** The urls on each page. */
  function PageLinks(pages: seq<seq<Entry>>): (r: seq<seq<string>>)
    ensures |r| == |pages|
    ensures forall j :: 0 <= j < |r| ==> r[j] == Urls(pages[j])
  {
    seq(|pages|, j requires 0 <= j < |pages| => Urls(pages[j]))
  }

  /** The loop of `get_house_list` over the remaining pages, holding `lst`
      and `cache` so far: append each page's urls and cache its houses,
      and stop once more than `max_houses` urls are held. */
  function Walk(pages: seq<seq<Entry>>, lst: seq<string>, cache: Cache, maxHouses: int): (r: (seq<string>, Cache))
    requires maxHouses >= 0 ==> |lst| <= maxHouses
    ensures r.0 == Collect(PageLinks(pages), lst, maxHouses)
    ensures (forall u :: u in lst ==> u in cache) ==> forall u :: u in r.0 ==> u in r.1
    ensures forall u :: u in r.1 ==> u in cache || u in Concat(PageLinks(pages))
    decreases |pages|
  {
    if |pages| == 0 then
      (lst, cache)
    else
      var lst' := lst + Urls(pages[0]);
      var cache' := Remember(cache, pages[0]);
      assert PageLinks(pages) == [Urls(pages[0])] + PageLinks(pages[1..]);
      if |lst'| > maxHouses then
        (Prefix(lst', maxHouses), cache')
      else
        Walk(pages[1..], lst', cache', maxHouses)
  }

  /** Every house the walk caches is the old cached house or a house some
      walked page lists under that url. */
  lemma {:induction false} WalkCachesListed(pages: seq<seq<Entry>>, lst: seq<string>, cache: Cache, maxHouses: int)
    requires maxHouses >= 0 ==> |lst| <= maxHouses
    ensures var c := Walk(pages, lst, cache, maxHouses).1;
            forall u :: u in c ==> (u in cache && c[u] == cache[u]) || Entry(u, c[u]) in Concat(pages)
    decreases |pages|
  {
    if |pages| > 0 {
      var lst' := lst + Urls(pages[0]);
      var cache' := Remember(cache, pages[0]);
      forall u | u in Urls(pages[0])
        ensures Entry(u, cache'[u]) in pages[0]
      {
        RememberListed(cache, pages[0], u);
      }
      assert Concat(pages) == pages[0] + Concat(pages[1..]);
      if |lst'| <= maxHouses {
        WalkCachesListed(pages[1..], lst', cache', maxHouses);
      }
    }
  }

  /** Every url the site lists on the pages `get_house_list` visits, in
      visiting order. */
  function AllLinks(site: Site, total: int): seq<string> {
    Concat(PageLinks(VisitedPages(site, VisitOrder(total))))
  }

  /** `get_house_list`: `min_date` is accepted and ignored; the cache starts
      empty; the result is the first `max_houses` urls of the visited pages
      in visiting order, and every returned url is in the cache. */
  function GetHouseList(site: Site, minDate: Value, maxHouses: int): (r: Result<(seq<string>, Cache)>)
    ensures r.Err? <==> site.total.Err?
    ensures r.Ok? ==> forall u :: u in r.value.0 ==> u in r.value.1
    ensures r.Ok? ==> forall u :: u in r.value.1 ==> u in AllLinks(site, site.total.value)
    ensures r.Ok? && maxHouses >= 0 ==>
              && r.value.0 == Prefix(AllLinks(site, site.total.value), maxHouses)
              && |r.value.0| == Min(maxHouses, |AllLinks(site, site.total.value)|)
  {
    var total :- site.total;
    var all := AllLinks(site, total);
    assert [] + all == all;
    Ok(Walk(VisitedPages(site, VisitOrder(total)), [], map[], maxHouses))
  }

  /** The error `get_house` raises for a url the cache does not hold. */
  function NotFound(link: string): Error {
    ValueError("Link " + link + " not found in houses")
  }

  const SelectedKeys: set<string> :=
    { "id", "title", "last_refresh_time", "created_time", "valid_to_time",
      "pushup_time", "description", "status" }

  /** The selected keys, `_id` from `id`, and the description with its break
      tags stripped. */
  function Head(data: Record): (r: Result<Record>)
    ensures r.Ok? <==> "id" in data && "description" in data && data["description"].VStr?
    ensures "id" !in data ==> r == Err(KeyError("id"))
    ensures r.Err? ==> AccessError(r.error)
    ensures r.Ok? ==>
              && r.value.Keys == data.Keys * SelectedKeys + {"_id"}
              && "_id" in r.value && "description" in r.value && "description" in data && data["description"].VStr?
              && r.value["_id"] == data["id"]
              && r.value["description"] == VStr(StripBreaks(data["description"].s))
              && forall k :: k in r.value && k != "_id" && k != "description" ==> r.value[k] == data[k]
  {
    var id :- Get(data, "id");
    var selected := Restrict(data, SelectedKeys)["_id" := id];
    var description :- Get(selected, "description");
    var text :- AsText(description);
    Ok(selected["description" := VStr(StripBreaks(text))])
  }

  /** The promotion entries copied into the record: all but `options` and
      `b2c_ad_page`. */
  function Promotions(promotion: Record): (r: Record)
    ensures r.Keys == promotion.Keys - {"options", "b2c_ad_page"}
    ensures forall k :: k in r ==> r[k] == promotion[k]
  {
    promotion - {"options", "b2c_ad_page"}
  }

  /** What one param writes: under its `key`, the `value` of its value if
      that has one, else the value's `key`, else nothing. */
  function ParamEntry(p: Value): (r: Result<Option<(string, Value)>>)
    ensures r.Err? ==> AccessError(r.error)
    ensures p.VMap? && "key" in p.fields && p.fields["key"].VStr?
            && "value" in p.fields && p.fields["value"].VMap? ==>
              var m := p.fields["value"].fields;
              var k := p.fields["key"].s;
              r == Ok(if "value" in m then Some((k, m["value"]))
                      else if "key" in m then Some((k, m["key"]))
                      else None)
    ensures !p.VMap? ==> r.Err?
  {
    var value :- Field(p, "value");
    var hasValue :- Contains(value, "value");
    if hasValue then
      var v :- Field(value, "value");
      var key :- Field(p, "key");
      var k :- AsKey(key);
      Ok(Some((k, v)))
    else
      var hasKey :- Contains(value, "key");
      if hasKey then
        var v :- Field(value, "key");
        var key :- Field(p, "key");
        var k :- AsKey(key);
        Ok(Some((k, v)))
      else
        // the warning logged for the unparsable param reads its key
        var _ :- Field(p, "key");
        Ok(None)
  }

  /** A param that writes something is a dict whose `key` names the field
      written and whose `value` is a dict holding what is written. */
  lemma ParamEntryWrites(p: Value)
    requires ParamEntry(p).Ok? && ParamEntry(p).value.Some?
    ensures p.VMap? && "key" in p.fields && p.fields["key"] == VStr(ParamEntry(p).value.value.0)
    ensures "value" in p.fields && p.fields["value"].VMap?
    ensures var m := p.fields["value"].fields;
            ParamEntry(p).value.value.1 == if "value" in m then m["value"] else m["key"]
  {
  }

  /** Every param reads without raising. */
  predicate AllParamsRead(params: seq<Value>) {
    forall j :: 0 <= j < |params| ==> ParamEntry(params[j]).Ok?
  }

  /** The assignments the params make, in order; the first failing param
      raises. */
  function Params(params: seq<Value>): (r: Result<seq<(string, Value)>>)
    ensures r.Err? ==> AccessError(r.error)
    ensures r.Ok? <==> AllParamsRead(params)
    ensures r.Err? ==> exists j :: 0 <= j < |params| && ParamEntry(params[j]) == Err(r.error)
                                   && forall l :: 0 <= l < j ==> ParamEntry(params[l]).Ok?
    ensures r.Ok? ==> forall p :: p in r.value ==> exists j :: 0 <= j < |params| && ParamEntry(params[j]) == Ok(Some(p))
    ensures r.Ok? ==> forall j :: 0 <= j < |params| && ParamEntry(params[j]).value.Some? ==>
                        ParamEntry(params[j]).value.value in r.value
    decreases |params|
  {
    if |params| == 0 then
      Ok([])
    else
      var entry :- ParamEntry(params[0]);
      var rest := Params(params[1..]);
      assert forall j :: 1 <= j < |params| ==> params[j] == params[1..][j - 1];
      if rest.Err? then
        var j :| 0 <= j < |params[1..]| && ParamEntry(params[1..][j]) == Err(rest.error)
                 && forall l :: 0 <= l < j ==> ParamEntry(params[1..][l]).Ok?;
        assert ParamEntry(params[j + 1]) == Err(rest.error);
        Err(rest.error)
      else
        var head := if entry.Some? then [entry.value] else [];
        assert forall p :: p in head + rest.value <==> p in head || p in rest.value;
        Ok(head + rest.value)
  }

  /** The params write in order, so the last param that writes a key
      decides the key's value. */
  lemma {:induction false} LastParamWins(m: Record, params: seq<Value>, j: int)
    requires Params(params).Ok?
    requires 0 <= j < |params| && ParamEntry(params[j]).value.Some?
    requires forall i :: j < i < |params| && ParamEntry(params[i]).value.Some? ==>
               ParamEntry(params[i]).value.value.0 != ParamEntry(params[j]).value.value.0
    ensures var (k, v) := ParamEntry(params[j]).value.value;
            k in Assign(m, Params(params).value) && Assign(m, Params(params).value)[k] == v
    decreases |params|
  {
    var (k, v) := ParamEntry(params[j]).value.value;
    AssignFirstParam(m, params);
    var entry := ParamEntry(params[0]).value;
    var m' := if entry.Some? then m[entry.value.0 := entry.value.1] else m;
    var rest := Params(params[1..]).value;
    if j == 0 {
      NoLaterParamWrites(params, k);
      AssignLastWins(m', rest);
    } else {
      forall i | j - 1 < i < |params[1..]| && ParamEntry(params[1..][i]).value.Some?
        ensures ParamEntry(params[1..][i]).value.value.0 != k
      {
        assert params[1..][i] == params[i + 1];
      }
      assert params[1..][j - 1] == params[j];
      LastParamWins(m', params[1..], j - 1);
    }
  }

  /** Assigning the params' pairs is assigning the first param's pair, if
      it writes one, then the rest's. */
  lemma AssignFirstParam(m: Record, params: seq<Value>)
    requires |params| > 0 && Params(params).Ok?
    ensures Params(params[1..]).Ok? && ParamEntry(params[0]).Ok?
    ensures var entry := ParamEntry(params[0]).value;
            var m' := if entry.Some? then m[entry.value.0 := entry.value.1] else m;
            Assign(m, Params(params).value) == Assign(m', Params(params[1..]).value)
  {
    ParamsSplit(params);
    var entry := ParamEntry(params[0]).value;
    var rest := Params(params[1..]).value;
    var head := if entry.Some? then [entry.value] else [];
    if entry.Some? {
      assert (head + rest)[0] == entry.value && (head + rest)[1..] == rest;
    } else {
      assert head + rest == rest;
    }
  }

  /** When no param after the first writes `k`, the rest's pairs do not
      name `k`. */
  lemma NoLaterParamWrites(params: seq<Value>, k: string)
    requires |params| > 0 && Params(params[1..]).Ok?
    requires forall i :: 0 < i < |params| && ParamEntry(params[i]).value.Some? ==> ParamEntry(params[i]).value.value.0 != k
    ensures LastValue(Params(params[1..]).value, k).None?
  {
    var rest := Params(params[1..]).value;
    forall i | 0 <= i < |rest|
      ensures rest[i].0 != k
    {
      assert rest[i] in rest;
      var i' :| 0 <= i' < |params[1..]| && ParamEntry(params[1..][i']) == Ok(Some(rest[i]));
      assert params[1..][i'] == params[i' + 1];
    }
  }

  /** The pairs of params that all read are the first param's pair, if it
      writes one, followed by the rest's. */
  lemma ParamsSplit(params: seq<Value>)
    requires |params| > 0 && Params(params).Ok?
    ensures ParamEntry(params[0]).Ok? && Params(params[1..]).Ok?
    ensures var entry := ParamEntry(params[0]).value;
            Params(params).value == (if entry.Some? then [entry.value] else []) + Params(params[1..]).value
  {
  }

  /** `[photo["link"] for photo in photos]`. */
  function PhotoLinks(photos: seq<Value>): (r: Result<seq<Value>>)
    ensures r.Err? ==> AccessError(r.error)
    ensures r.Ok? <==> forall j :: 0 <= j < |photos| ==> photos[j].VMap? && "link" in photos[j].fields
    ensures r.Ok? ==> |r.value| == |photos|
                      && forall j :: 0 <= j < |photos| ==> r.value[j] == photos[j].fields["link"]
    decreases |photos|
  {
    if |photos| == 0 then
      Ok([])
    else
      var link :- Field(photos[0], "link");
      var rest :- PhotoLinks(photos[1..]);
      assert forall j :: 1 <= j < |photos| ==> photos[j] == photos[1..][j - 1];
      Ok([link] + rest)
  }

  /** The category entries, each under its key prefixed with `category_`. */
  function Categories(category: Record): (r: Record)
    ensures forall k :: k in category ==> "category_" + k in r && r["category_" + k] == category[k]
    ensures forall k :: k in r ==> |k| >= 9 && k[..9] == "category_"
  {
    PrefixCancels("category_");
    map k | k in category :: "category_" + k := category[k]
  }

  /** Prefixing a fixed string is injective. */
  lemma PrefixCancels(p: string)
    ensures forall a: string, b: string :: p + a == p + b ==> a == b
  {
    forall a: string, b: string | p + a == p + b
      ensures a == b
    {
      assert a == (p + a)[|p|..];
      assert b == (p + b)[|p|..];
    }
  }

  /** Parse the time text stored under `key` and store the time back. */
  function Stamp(s: Record, key: string): (r: Result<(Record, Timestamp)>)
    ensures r.Ok? <==> key in s && s[key].VStr?
    ensures r.Err? ==> AccessError(r.error)
    ensures r.Ok? ==> key in s && r.value.0 == s[key := VTime(r.value.1)] && s[key] == VStr(r.value.1.text)
  {
    var raw :- Get(s, key);
    var t :- ParseTime(raw);
    Ok((s[key := VTime(t)], t))
  }

  /** The fields the last steps of `get_house` write. */
  const FinalKeys: set<string> :=
    { "last_refresh_time", "created_time", "valid_to_time", "pushup_time", "provider", "link" }

  /** The last steps of `get_house`: parse the four time fields, add the
      provider and the link, and return the creation time as the change
      time. Every other field is left as it is. */
  function Finish(s: Record, link: string): (r: Result<(Record, Timestamp)>)
    ensures r.Ok? <==> TimesReadable(s)
    ensures r.Err? ==> AccessError(r.error)
    ensures r.Ok? ==>
              var (rec, t) := r.value;
              && rec.Keys == s.Keys + FinalKeys
              && rec["provider"] == VStr(ProviderName)
              && rec["link"] == VStr(link)
              && rec["created_time"] == VTime(t)
              && "created_time" in s && s["created_time"] == VStr(t.text)
              && rec["last_refresh_time"] == VTime(Timestamp(s["last_refresh_time"].s))
              && rec["created_time"] == VTime(Timestamp(s["created_time"].s))
              && rec["valid_to_time"] == VTime(Timestamp(s["valid_to_time"].s))
              && rec["pushup_time"] == VTime(Timestamp(s["pushup_time"].s))
              && forall k :: k in s && k !in FinalKeys ==> rec[k] == s[k]
  {
    var t1 :- Stamp(s, "last_refresh_time");
    var t2 :- Stamp(t1.0, "created_time");
    var t3 :- Stamp(t2.0, "valid_to_time");
    var t4 :- Stamp(t3.0, "pushup_time");
    Ok((t4.0["provider" := VStr(ProviderName)]["link" := VStr(link)], t2.1))
  }

  /** Crossed coordinates: `longitude` takes the map's `lat` and `latitude`
      its `lon`. */
  function Coordinates(s: Record, m: Value): (r: Result<Record>)
    ensures r.Ok? <==> m.VMap? && "lat" in m.fields && "lon" in m.fields
    ensures r.Err? ==> AccessError(r.error)
    ensures r.Ok? ==>
              && r.value.Keys == s.Keys + {"longitude", "latitude"}
              && r.value["longitude"] == m.fields["lat"]
              && r.value["latitude"] == m.fields["lon"]
              && forall k :: k in s && k != "longitude" && k != "latitude" ==> k in r.value && r.value[k] == s[k]
  {
    var lat :- Field(m, "lat");
    var lon :- Field(m, "lon");
    Ok(s["longitude" := lat]["latitude" := lon])
  }

  /** No step after the head writes `key`: the promotion has no `key`
      entry, no param is keyed `key`, and the location has no dict-valued
      `key` entry. */
  predicate Kept(data: Record, key: string) {
    && ("promotion" in data && data["promotion"].VMap? ==> key !in data["promotion"].fields)
    && ("params" in data && data["params"].VList? ==>
          forall p :: p in data["params"].items ==> !(p.VMap? && "key" in p.fields && p.fields["key"] == VStr(key)))
    && ("location" in data && data["location"].VMap? && key in data["location"].fields ==>
          !data["location"].fields[key].VMap?)
  }

  /** No step after the head writes any of the four time fields. */
  predicate TimesKept(data: Record) {
    && Kept(data, "last_refresh_time") && Kept(data, "created_time")
    && Kept(data, "valid_to_time") && Kept(data, "pushup_time")
  }

  /** The four time fields are present and hold text, as `strptime` needs. */
  predicate TimesReadable(s: Record) {
    && "last_refresh_time" in s && s["last_refresh_time"].VStr?
    && "created_time" in s && s["created_time"].VStr?
    && "valid_to_time" in s && s["valid_to_time"].VStr?
    && "pushup_time" in s && s["pushup_time"].VStr?
  }

  /** A param `ParamEntry` reads without raising: a dict with a string
      `key` and a dict `value`. */
  predicate WellFormedParam(p: Value) {
    p.VMap? && "key" in p.fields && p.fields["key"].VStr? && "value" in p.fields && p.fields["value"].VMap?
  }

  /** The fields the steps up to the coordinates read, each of the type it
      is read as. */
  predicate WellFormedSelection(data: Record) {
    && "id" in data && "description" in data && data["description"].VStr?
    && "promotion" in data && data["promotion"].VMap?
    && "params" in data && data["params"].VList?
    && (forall j :: 0 <= j < |data["params"].items| ==> WellFormedParam(data["params"].items[j]))
    && "user" in data && data["user"].VMap? && "id" in data["user"].fields && "created" in data["user"].fields
  }

  /** A `map`, if there is one, with `lat` and `lon`; a `location` dict
      whose dict-valued entries all have a `name`. */
  predicate WellFormedLocation(data: Record) {
    && ("map" in data ==> data["map"].VMap? && "lat" in data["map"].fields && "lon" in data["map"].fields)
    && "location" in data && data["location"].VMap?
    && forall k :: k in data["location"].fields && data["location"].fields[k].VMap? ==>
         "name" in data["location"].fields[k].fields
  }

  /** A house object every step before the time fields reads without
      raising. */
  predicate WellFormedHouse(data: Record) {
    && WellFormedSelection(data)
    && WellFormedLocation(data)
    && WellFormedPictures(data)
  }

  /** A `photos` list of dicts with a `link` each, and a `category` dict. */
  predicate WellFormedPictures(data: Record) {
    && "photos" in data && data["photos"].VList?
    && (forall j :: 0 <= j < |data["photos"].items| ==>
          data["photos"].items[j].VMap? && "link" in data["photos"].items[j].fields)
    && "category" in data && data["category"].VMap?
  }

  /** The photo links of a house object's `photos` list. */
  predicate PhotosOf(data: Record, photos: Value) {
    && "photos" in data && photos.VList?
    && (data["photos"].VList? ==>
          && |photos.items| == |data["photos"].items|
          && forall j :: 0 <= j < |photos.items| ==>
               data["photos"].items[j].VMap? && "link" in data["photos"].items[j].fields
               && photos.items[j] == data["photos"].items[j].fields["link"])
  }

  /** The head, the promotions and the params. */
  function Assigned(data: Record): (r: Result<Record>)
    ensures r.Err? ==> AccessError(r.error)
    ensures WellFormedSelection(data) ==> r.Ok?
    ensures r.Ok? ==> "id" in data && "_id" in r.value
    ensures r.Ok? && Kept(data, "_id") ==> r.value["_id"] == data["id"]
  {
    var s0 :- Head(data);
    var promotion :- Get(data, "promotion");
    var promo :- AsMap(promotion);
    var s1 := s0 + Promotions(promo);
    var params :- Get(data, "params");
    var paramList :- Elements(params);
    var pairs :- Params(paramList);
    AssignLastWins(s1, pairs);
    assert Kept(data, "_id") ==> LastValue(pairs, "_id").None? by {
      if Kept(data, "_id") {
        NoParamWrites(paramList, pairs, "_id");
      }
    }
    Ok(Assign(s1, pairs))
  }

  /** The head, the promotions, the params and the user (the steps up to
      the coordinates). */
  function Selected(data: Record): (r: Result<Record>)
    ensures r.Err? ==> AccessError(r.error)
    ensures WellFormedSelection(data) ==> r.Ok?
    ensures r.Ok? ==> "id" in data && "_id" in r.value
    ensures r.Ok? && Kept(data, "_id") ==> r.value["_id"] == data["id"]
  {
    var s2 :- Assigned(data);
    var user :- Get(data, "user");
    var userId :- Field(user, "id");
    var userCreated :- Field(user, "created");
    Ok(s2["user_id" := userId]["user_created_at" := userCreated])
  }

  /** The crossed coordinates, when the house has a `map`, and the address
      names. */
  function Located(data: Record, s: Record): (r: Result<Record>)
    ensures r.Err? ==> AccessError(r.error)
    ensures WellFormedLocation(data) ==> r.Ok?
    ensures r.Ok? ==> forall k :: k in s ==> k in r.value
    ensures r.Ok? && "_id" in s && Kept(data, "_id") ==> r.value["_id"] == s["_id"]
  {
    var s4 :- if "map" in data then Coordinates(s, data["map"]) else Ok(s);
    var location :- Get(data, "location");
    var loc :- AsMap(location);
    var names :- NamedEntries(loc);
    Ok(s4 + names)
  }

  /** Whether a field name starts with `category_`, as the category
      entries' names do. */
  predicate IsCategoryKey(k: string) {
    |k| >= 9 && k[..9] == "category_"
  }

  /** The photo links under `photos`, and the category entries under
      `category_`-prefixed names. Every other field is left as it is. */
  function Pictured(data: Record, s: Record): (r: Result<Record>)
    ensures r.Err? ==> AccessError(r.error)
    ensures WellFormedPictures(data) ==> r.Ok?
    ensures r.Ok? ==> forall k :: k in s && k != "photos" && !IsCategoryKey(k) ==> k in r.value && r.value[k] == s[k]
    ensures r.Ok? ==> "photos" in r.value && PhotosOf(data, r.value["photos"])
    ensures r.Ok? ==> "category" in data && data["category"].VMap?
    ensures r.Ok? ==> var category := data["category"].fields;
              forall k :: k in category ==> "category_" + k in r.value && r.value["category_" + k] == category[k]
  {
    var photos :- Get(data, "photos");
    var photoList :- Elements(photos);
    var links :- PhotoLinks(photoList);
    var s6 := s["photos" := VList(links)];
    var category :- Get(data, "category");
    var cat :- AsMap(category);
    assert "photos" !in Categories(cat);
    Ok(s6 + Categories(cat))
  }

  /** Every step of `get_house` before the time fields, on one house
      object. The record is stored under `_id`, which is the house's `id`
      unless a later step writes `_id` too. */
  function Flatten(data: Record): (r: Result<Record>)
    ensures r.Err? ==> AccessError(r.error)
    ensures WellFormedHouse(data) ==> r.Ok?
    ensures r.Ok? ==> "id" in data && "_id" in r.value
    ensures r.Ok? && Kept(data, "_id") ==> r.value["_id"] == data["id"]
    ensures r.Ok? ==> "photos" in r.value && PhotosOf(data, r.value["photos"])
    ensures r.Ok? ==> "category" in data && data["category"].VMap?
    ensures r.Ok? ==> var category := data["category"].fields;
              forall k :: k in category ==> "category_" + k in r.value && r.value["category_" + k] == category[k]
  {
    var s3 :- Selected(data);
    var s5 :- Located(data, s3);
    Pictured(data, s5)
  }

  /** Params none of which is keyed `key` write no `key`. */
  lemma NoParamWrites(params: seq<Value>, pairs: seq<(string, Value)>, key: string)
    requires Params(params) == Ok(pairs)
    requires forall p :: p in params ==> !(p.VMap? && "key" in p.fields && p.fields["key"] == VStr(key))
    ensures LastValue(pairs, key).None?
  {
    forall i | 0 <= i < |pairs|
      ensures pairs[i].0 != key
    {
      assert pairs[i] in pairs;
      var j :| 0 <= j < |params| && ParamEntry(params[j]) == Ok(Some(pairs[i]));
      ParamEntryWrites(params[j]);
      assert params[j] in params;
    }
  }

  /** `get_house`: a url the cache does not hold raises `ValueError`;
      otherwise the cached house object is flattened. The record carries
      the house's `id` as `_id`, the key it is stored under, unless a
      promotion, param or address entry writes `_id` as well. */
  function GetHouse(houses: Cache, link: string): (r: Result<(Record, Timestamp)>)
    ensures r == Err(NotFound(link)) <==> link !in houses
    ensures r.Ok? <==> link in houses && Flatten(houses[link]).Ok? && TimesReadable(Flatten(houses[link]).value)
    ensures r.Ok? ==>
              var (rec, t) := r.value;
              && link in houses
              && "id" in houses[link] && "_id" in rec
              && (Kept(houses[link], "_id") ==> rec["_id"] == houses[link]["id"])
              && "photos" in rec && PhotosOf(houses[link], rec["photos"])
              && "provider" in rec && "link" in rec && "created_time" in rec
              && rec["provider"] == VStr(ProviderName)
              && rec["link"] == VStr(link)
              && rec["created_time"] == VTime(t)
              && "category" in houses[link] && houses[link]["category"].VMap?
              && forall k :: k in houses[link]["category"].fields ==>
                   "category_" + k in rec && rec["category_" + k] == houses[link]["category"].fields[k]
  {
    if link !in houses then
      Err(NotFound(link))
    else
      var flat :- Flatten(houses[link]);
      var r := Finish(flat, link);
      CategoryKeysSurvive();
      FlatKeysSurvive();
      r
  }

  /** A selected field other than the description keeps the house
      object's value through the head, the promotions, the params and the
      user, unless one of those writes it. */
  lemma SelectedKeeps(data: Record, k: string)
    requires Selected(data).Ok?
    requires k in data && k in SelectedKeys && k != "description" && Kept(data, k)
    ensures k in Selected(data).value && Selected(data).value[k] == data[k]
  {
    AssignedKeeps(data, k);
    UserKeysDiffer(k);
    var s2 := Assigned(data).value;
    var user := data["user"].fields;
    assert Selected(data).value == s2["user_id" := user["id"]]["user_created_at" := user["created"]];
  }

  /** No selected field is one of the user fields. */
  lemma UserKeysDiffer(k: string)
    requires k in SelectedKeys
    ensures k != "user_id" && k != "user_created_at"
  {
    SelectedKeyShape(k);
  }

  /** The same through the head, the promotions and the params. */
  lemma AssignedKeeps(data: Record, k: string)
    requires Assigned(data).Ok?
    requires k in data && k in SelectedKeys && k != "description" && Kept(data, k)
    ensures k in Assigned(data).value && Assigned(data).value[k] == data[k]
  {
    SelectedKeyShape(k);
    var s0 := Head(data).value;
    assert k in s0 && s0[k] == data[k];
    var promo := data["promotion"].fields;
    var s1 := s0 + Promotions(promo);
    assert k in s1 && s1[k] == data[k];
    var paramList := Elements(data["params"]).value;
    var pairs := Params(paramList).value;
    NoParamWrites(paramList, pairs, k);
    AssignLastWins(s1, pairs);
  }

  /** The selected fields are told apart from the fields later steps write
      by their length, and the one of length six by its first letter. */
  lemma SelectedKeyShape(k: string)
    requires k in SelectedKeys
    ensures |k| in {2, 5, 6, 11, 12, 13, 17}
    ensures |k| == 6 ==> k[0] == 's'
  {
  }

  /** A field the location does not write keeps its value through the
      coordinates and the address names. */
  lemma LocatedKeeps(data: Record, s: Record, k: string)
    requires Located(data, s).Ok?
    requires k in s && k != "longitude" && k != "latitude" && Kept(data, k)
    ensures k in Located(data, s).value && Located(data, s).value[k] == s[k]
  {
  }

  /** A selected field other than the description reaches the flattened
      record with the house object's value, unless a later step writes it. */
  lemma FlattenKeeps(data: Record, k: string)
    requires Flatten(data).Ok?
    requires k in data && k in SelectedKeys && k != "description" && Kept(data, k)
    ensures k in Flatten(data).value && Flatten(data).value[k] == data[k]
  {
    SelectedKeyShape(k);
    SelectedKeeps(data, k);
    var s3 := Selected(data).value;
    LocatedKeeps(data, s3, k);
    SelectedNotCategory(k);
  }

  /** No selected field starts with `category_`. */
  lemma SelectedNotCategory(k: string)
    requires k in SelectedKeys
    ensures !IsCategoryKey(k)
  {
    if |k| >= 9 {
      assert k[0] != 'c' || k[1] != 'a';
      assert k[..9][0] == k[0] && k[..9][1] == k[1];
      assert "category_"[0] == 'c' && "category_"[1] == 'a';
    }
  }

  /** A cached well-formed house object whose time fields hold text and are
      written by no later step is fetched without raising. */
  lemma WellFormedHouseFetched(houses: Cache, link: string)
    requires link in houses && WellFormedHouse(houses[link])
    requires TimesReadable(houses[link]) && TimesKept(houses[link])
    ensures GetHouse(houses, link).Ok?
  {
    var data := houses[link];
    FlattenKeeps(data, "last_refresh_time");
    FlattenKeeps(data, "created_time");
    FlattenKeeps(data, "valid_to_time");
    FlattenKeeps(data, "pushup_time");
  }

  /** `_id` and `photos` are not among the fields the last steps write. */
  lemma FlatKeysSurvive()
    ensures "_id" !in FinalKeys && "photos" !in FinalKeys
  {
    assert |"_id"| == 3 && |"photos"| == 6;
    assert forall k :: k in FinalKeys ==> |k| == 4 || |k| > 6;
  }

  /** The keys `Categories` writes all start with `category_`, and none of
      the fields written after them does. */
  lemma CategoryKeysSurvive()
    ensures forall k :: "category_" + k !in FinalKeys
  {
    forall k
      ensures "category_" + k !in FinalKeys
    {
      var key := "category_" + k;
      assert key[0] == 'c' && key[1] == 'a';
    }
  }

  /** Every url the listing returns is in the cache it leaves behind, so
      `get_house` never raises the not-found error for it. */
  lemma ReturnedLinksAreCached(site: Site, minDate: Value, maxHouses: int, u: string)
    requires GetHouseList(site, minDate, maxHouses).Ok?
    requires u in GetHouseList(site, minDate, maxHouses).value.0
    ensures var (links, cache) := GetHouseList(site, minDate, maxHouses).value;
            u in cache && GetHouse(cache, u) != Err(NotFound(u))
  {
  }

  /** Every house the listing caches is one a visited page lists under
      its url. */
  lemma CachedHousesListed(site: Site, minDate: Value, maxHouses: int, u: string)
    requires GetHouseList(site, minDate, maxHouses).Ok?
    requires u in GetHouseList(site, minDate, maxHouses).value.1
    ensures var cache := GetHouseList(site, minDate, maxHouses).value.1;
            Entry(u, cache[u]) in Concat(VisitedPages(site, VisitOrder(site.total.value)))
  {
    var pages := VisitedPages(site, VisitOrder(site.total.value));
    WalkCachesListed(pages, [], map[], maxHouses);
    assert GetHouseList(site, minDate, maxHouses).value == Walk(pages, [], map[], maxHouses);
  }

  /** `min_date` does not change what the listing returns. */
  lemma MinDateIgnored(site: Site, d1: Value, d2: Value, maxHouses: int)
    ensures GetHouseList(site, d1, maxHouses) == GetHouseList(site, d2, maxHouses)
  {
  }
}

=== FILE: paging.dfy ===
/** The pagination both scrapers share: pages are visited from the last
    index down, their links appended, and the loop stops early once it holds
    more than `max_houses` links. */
module Paging {

  function Min(a: int, b: int): int {
    if a <= b then a else b
  }

  function Max(a: int, b: int): int {
    if a <= b then b else a
  }

  /** `reversed(range(lo, hi))`. */
  function Descending(lo: int, hi: int): (r: seq<int>)
    ensures |r| == Max(0, hi - lo)
    ensures forall j :: 0 <= j < |r| ==> r[j] == hi - 1 - j
    decreases hi - lo
  {
    if hi <= lo then [] else [hi - 1] + Descending(lo, hi - 1)
  }

  /** The pages' elements, one page after the other. */
  function Concat<T>(pages: seq<seq<T>>): seq<T>
    decreases |pages|
  {
    if |pages| == 0 then [] else pages[0] + Concat(pages[1..])
  }

  /** Python's `s[:k]`; a negative `k` drops that many elements from the end. */
  function Prefix<T>(s: seq<T>, k: int): (r: seq<T>)
    ensures k >= 0 ==> r == s[..Min(k, |s|)]
    ensures k < 0 ==> r == s[..Max(0, |s| + k)]
  {
    if k >= 0 then s[..Min(k, |s|)] else s[..Max(0, |s| + k)]
  }

  /** The list the loop
        for page in pages: lst.extend(page); if len(lst) > max: return lst[:max]
        return lst
      returns, starting from `lst`. For a non-negative bound it is the
      bounded prefix of everything on the pages, however early the loop
      stopped; for a negative bound the loop stops after the first page. */
  function Collect<T>(pages: seq<seq<T>>, lst: seq<T>, maxItems: int): (r: seq<T>)
    requires maxItems >= 0 ==> |lst| <= maxItems
    ensures maxItems >= 0 ==> r == Prefix(lst + Concat(pages), maxItems)
    ensures maxItems >= 0 ==> |r| == Min(maxItems, |lst| + |Concat(pages)|)
    ensures maxItems < 0 && |pages| > 0 ==> r == Prefix(lst + pages[0], maxItems)
    decreases |pages|
  {
    if |pages| == 0 then
      lst
    else
      var lst' := lst + pages[0];
      assert lst + Concat(pages) == lst' + Concat(pages[1..]);
      if |lst'| > maxItems then
        Prefix(lst', maxItems)
      else
        Collect(pages[1..], lst', maxItems)
  }
}

=== FILE: text.dfy ===
/** The string operations the scrapers use: `str.replace` and `str(int)`. */
module Text {

  /** `pat` occurs in `s` starting at index `i`. */
  predicate OccursAt(s: string, pat: string, i: int) {
    0 <= i && i + |pat| <= |s| && s[i..i + |pat|] == pat
  }

  /** `pat in s` for strings. */
  predicate Occurs(s: string, pat: string) {
    exists i :: 0 <= i <= |s| && OccursAt(s, pat, i)
  }

  /** `s.replace(pat, rep)`: scan left to right, replacing each occurrence
      that does not overlap an earlier replaced one. */
  function ReplaceAll(s: string, pat: string, rep: string): string
    requires |pat| > 0
    decreases |s|
  {
    if |s| < |pat| then s
    else if s[..|pat|] == pat then rep + ReplaceAll(s[|pat|..], pat, rep)
    else [s[0]] + ReplaceAll(s[1..], pat, rep)
  }

  /** An occurrence in `s[1..]` is an occurrence in `s`, one place later. */
  lemma OccursInTail(s: string, pat: string, i: int)
    requires |s| > 0 && OccursAt(s[1..], pat, i)
    ensures OccursAt(s, pat, i + 1)
  {
    assert s[i + 1..i + 1 + |pat|] == s[1..][i..i + |pat|];
  }

  /** Replacing with a string no longer than the pattern never lengthens. */
  lemma {:induction false} ReplaceNeverGrows(s: string, pat: string, rep: string)
    requires |pat| > 0 && |rep| <= |pat|
    ensures |ReplaceAll(s, pat, rep)| <= |s|
    decreases |s|
  {
    if |s| < |pat| {
    } else if s[..|pat|] == pat {
      ReplaceNeverGrows(s[|pat|..], pat, rep);
    } else {
      ReplaceNeverGrows(s[1..], pat, rep);
    }
  }

  /** A string without the pattern is left as it is. */
  lemma {:induction false} ReplaceAbsent(s: string, pat: string, rep: string)
    requires |pat| > 0 && !Occurs(s, pat)
    ensures ReplaceAll(s, pat, rep) == s
    decreases |s|
  {
    if |s| < |pat| {
    } else if s[..|pat|] == pat {
      assert OccursAt(s, pat, 0);
      assert false;
    } else {
      forall i | 0 <= i <= |s[1..]| && OccursAt(s[1..], pat, i)
        ensures false
      {
        OccursInTail(s, pat, i);
      }
      ReplaceAbsent(s[1..], pat, rep);
    }
  }

  /** Replacing an occurring pattern with something shorter strictly shortens. */
  lemma {:induction false} ReplaceShrinks(s: string, pat: string, rep: string)
    requires |pat| > 0 && |rep| < |pat| && Occurs(s, pat)
    ensures |ReplaceAll(s, pat, rep)| < |s|
    decreases |s|
  {
    var i :| 0 <= i <= |s| && OccursAt(s, pat, i);
    if s[..|pat|] == pat {
      ReplaceNeverGrows(s[|pat|..], pat, rep);
    } else {
      assert i != 0;
      assert s[1..][i - 1..i - 1 + |pat|] == s[i..i + |pat|];
      assert OccursAt(s[1..], pat, i - 1);
      ReplaceShrinks(s[1..], pat, rep);
    }
  }

  /** Replacing the pattern with itself changes nothing. */
  lemma {:induction false} ReplaceSelf(s: string, pat: string)
    requires |pat| > 0
    ensures ReplaceAll(s, pat, pat) == s
    decreases |s|
  {
    if |s| < |pat| {
    } else if s[..|pat|] == pat {
      ReplaceSelf(s[|pat|..], pat);
      assert s == s[..|pat|] + s[|pat|..];
    } else {
      ReplaceSelf(s[1..], pat);
      assert s == [s[0]] + s[1..];
    }
  }

  /** When the pattern occurs, the replacement occurs in the result. */
  lemma {:induction false} ReplacementOccurs(s: string, pat: string, rep: string)
    requires |pat| > 0 && Occurs(s, pat)
    ensures Occurs(ReplaceAll(s, pat, rep), rep)
    decreases |s|
  {
    var i :| 0 <= i <= |s| && OccursAt(s, pat, i);
    var r := ReplaceAll(s, pat, rep);
    if s[..|pat|] == pat {
      assert r[0..|rep|] == rep;
      assert OccursAt(r, rep, 0);
    } else {
      assert i != 0;
      assert s[1..][i - 1..i - 1 + |pat|] == s[i..i + |pat|];
      assert OccursAt(s[1..], pat, i - 1);
      ReplacementOccurs(s[1..], pat, rep);
      var rest := ReplaceAll(s[1..], pat, rep);
      var k :| 0 <= k <= |rest| && OccursAt(rest, rep, k);
      assert r[1..] == rest;
      OccursInTail(r, rep, k);
    }
  }

  /** Dropping the first character shifts the places `pat` does not
      occur at down by one. */
  lemma NoOccurrenceInTail(s: string, pat: string, n: int)
    requires |s| > 0
    requires forall i :: 0 <= i < n ==> !OccursAt(s, pat, i)
    ensures forall i :: 0 <= i < n - 1 ==> !OccursAt(s[1..], pat, i)
  {
    forall i | 0 <= i < n - 1
      ensures !OccursAt(s[1..], pat, i)
    {
      assert !OccursAt(s, pat, i + 1);
      if i + |pat| <= |s| - 1 {
        assert s[1..][i..i + |pat|] == s[i + 1..i + 1 + |pat|];
      }
    }
  }

  /** A string holding the pattern once, with no occurrence starting
      before it and none after it, has exactly that occurrence replaced. */
  lemma {:induction false} ReplaceOnce(h: string, pat: string, rep: string, t: string)
    requires |pat| > 0
    requires forall i :: 0 <= i < |h| ==> !OccursAt(h + pat + t, pat, i)
    requires !Occurs(t, pat)
    ensures ReplaceAll(h + pat + t, pat, rep) == h + rep + t
    decreases |h|
  {
    var s := h + pat + t;
    if |h| == 0 {
      assert s == pat + t;
      assert s[..|pat|] == pat && s[|pat|..] == t;
      ReplaceAbsent(t, pat, rep);
    } else {
      var s' := h[1..] + pat + t;
      assert s[1..] == s';
      NoOccurrenceInTail(s, pat, |h|);
      ReplaceOnce(h[1..], pat, rep, t);
      assert !OccursAt(s, pat, 0);
      assert s[..|pat|] != pat;
      assert ReplaceAll(s, pat, rep) == [s[0]] + ReplaceAll(s', pat, rep);
      assert [h[0]] + (h[1..] + rep + t) == h + rep + t;
    }
  }

  /** No occurrence of `pat` starts at `i` when the character `pat[k]`
      would have to be at a place holding another one. */
  lemma MismatchAt(s: string, pat: string, i: int, k: int)
    requires 0 <= k < |pat| && 0 <= i + k < |s| && 0 <= i
    requires s[i + k] != pat[k]
    ensures !OccursAt(s, pat, i)
  {
    if i + |pat| <= |s| {
      assert s[i..i + |pat|][k] == s[i + k];
    }
  }
  /** No occurrence of `pat` starts in `s[a..b]` when that stretch lacks
      the first character of `pat`. */
  lemma NoStartWithin(s: string, pat: string, a: int, b: int)
    requires |pat| > 0 && 0 <= a <= b <= |s|
    requires pat[0] !in s[a..b]
    ensures forall i :: a <= i < b ==> !OccursAt(s, pat, i)
  {
    forall i | a <= i < b
      ensures !OccursAt(s, pat, i)
    {
      assert s[i] == s[a..b][i - a];
      MismatchAt(s, pat, i, 0);
    }
  }

  /** `s.replace("<br/>", "").replace("<br>", "")`, the line-break stripping
      both scrapers apply to a description. */
  function StripBreaks(s: string): string {
    ReplaceAll(ReplaceAll(s, "<br/>", ""), "<br>", "")
  }

  /** Stripping never lengthens a description, and leaves it unchanged
      exactly when it holds neither break tag. */
  lemma StripBreaksSpec(s: string)
    ensures |StripBreaks(s)| <= |s|
    ensures StripBreaks(s) == s <==> !Occurs(s, "<br/>") && !Occurs(s, "<br>")
  {
    var t := ReplaceAll(s, "<br/>", "");
    ReplaceNeverGrows(s, "<br/>", "");
    ReplaceNeverGrows(t, "<br>", "");
    if Occurs(s, "<br/>") {
      ReplaceShrinks(s, "<br/>", "");
    } else {
      ReplaceAbsent(s, "<br/>", "");
      if Occurs(s, "<br>") {
        ReplaceShrinks(t, "<br>", "");
      } else {
        ReplaceAbsent(t, "<br>", "");
      }
    }
  }

  /** The character of a decimal digit. */
  function DigitChar(d: nat): (c: char)
    requires d < 10
    ensures '0' <= c <= '9'
  {
    (48 + d) as char
  }

  /** `str(n)` for a natural number: decimal digits, no leading zero. */
  function Digits(n: nat): (r: string)
    ensures |r| >= 1
    ensures forall i :: 0 <= i < |r| ==> '0' <= r[i] <= '9'
    ensures |r| > 1 ==> r[0] != '0'
  {
    if n < 10 then [DigitChar(n)] else Digits(n / 10) + [DigitChar(n % 10)]
  }

  /** `str(n)` for any integer. */
  function Decimal(n: int): (r: string)
    ensures forall i :: 0 <= i < |r| ==> r[i] == '-' || '0' <= r[i] <= '9'
  {
    if n < 0 then "-" + Digits(-n) else Digits(n)
  }

  /** The number a string of decimal digits denotes. */
  function DigitsValue(s: string): int
    decreases |s|
  {
    if |s| == 0 then 0 else DigitsValue(s[..|s| - 1]) * 10 + (s[|s| - 1] as int - 48)
  }

  /** `int(s)` for what `str` produces. */
  function DecimalValue(s: string): int {
    if |s| > 0 && s[0] == '-' then -DigitsValue(s[1..]) else DigitsValue(s)
  }

  lemma {:induction false} DigitsRoundTrip(n: nat)
    ensures DigitsValue(Digits(n)) == n
    decreases n
  {
    if n >= 10 {
      var d := Digits(n / 10);
      DigitsRoundTrip(n / 10);
      assert (d + [DigitChar(n % 10)])[..|d|] == d;
    }
  }

  /** `int(str(n)) == n`: the page and offset numbers put into urls read
      back as themselves. */
  lemma DecimalRoundTrip(n: int)
    ensures DecimalValue(Decimal(n)) == n
  {
    if n < 0 {
      DigitsRoundTrip(-n);
      assert ("-" + Digits(-n))[1..] == Digits(-n);
    } else {
      DigitsRoundTrip(n);
    }
  }
}

=== FILE: wrappers.dfy ===
/** Failure-compatible datatypes standing in for Python's `None` and for the
    exceptions the collector raises and catches. */
module Wrappers {

  /** `None` / a present value. */
  datatype Option<+T> = None | Some(value: T)

  /** The exception kinds the modelled code can raise. The payload names the
      missing key or says what went wrong; nothing branches on it. */
  datatype Error =
    | KeyError(key: string)
    | TypeError(detail: string)
    | ValueError(detail: string)
    | AttributeError(detail: string)
    | IndexError
    | ZeroDivisionError
    | NotImplementedError

  /** A value or the exception that replaced it. Usable with `:-`. */
  datatype Result<+T> = Ok(value: T) | Err(error: Error) {

    predicate IsFailure() {
      Err?
    }

    function PropagateFailure<U>(): Result<U>
      requires Err?
    {
      Err(error)
    }

    function Extract(): T
      requires Ok?
    {
      value
    }
  }
}
